=== FILE: README.md ===
# tchat: a Dafny model of the session byte logic

tchat is a two-party terminal chat over one TCP connection (C, Linux and
Windows). This project models its byte-level session logic and proves
properties of that model:

- the XOR obfuscation and its port-derived key (`cipher.dfy`);
- NUL-delimited framing: the one-byte-at-a-time frame reader and the
  all-or-fail sender (`network.dfy`);
- the keystroke editor of `get_input` (`editor.dfy`);
- the `sscanf`-based command detection of `get_input` and
  `change_username` (`commands.dfy`);
- the hostname handshake, `handle_incoming`, `say_goodbye`,
  `change_username`, the receive loop and the main loop's send step, with
  an end-to-end property linking one side's keys to what the other side
  prints (`session.dfy`);
- the command-line loop of `main` (`args.dfy`).

`cstrings.dfy` holds what the others share:
- bytes (`bv8`);
- C strings, modelled as the bytes before the terminating NUL;
- the C-locale `isprint` and `isspace`;
- a few small sequence lemmas.

Every function is pure. The socket is replaced by a `Stream`: the finite run
of bytes that successive one-byte `recv` calls return, followed for ever by 0
(the peer closed) or by a negative value (an error). What `send` returns is a
parameter (`reported`). The keyboard is the sequence of key codes that
`getchar` returns. `atoi` is a function parameter. Constants are the Linux
values:
- end of line 0x0A, backspace 0x7F;
- line buffer 79 bytes, receive buffer 256 bytes;
- delimiter 0, goodbye byte 0xBB, default port 5555.

Points where the program's behaviour may be unexpected:
- The handshake sends the encrypted **hostname**, not the username.
- When the peer closes the connection, the receive loop closes the socket
  and the thread ends. The main loop does not notice until its next send
  (a chat line, the empty string after a rename, or the goodbye), which
  fails on the closed socket: the process then exits with "sending
  failed".
- When the 256-byte receive buffer fills without a delimiter, the partial
  frame is dropped. The handler is not called and `socket_recv` returns 1.
- A rename still sends a frame: the empty string, which is a lone
  delimiter. The receiver ignores it.
- `/` followed by a letter other than `q` or `u` is no command: the whole
  line goes out as chat.
- A username that starts with the goodbye byte 0xBB makes every chat
  line start with it, so the peer reads each line as a goodbye. A 0xBB
  later in the name does no harm (UTF-8 names such as "Jo»", 4A 6F C2 BB,
  have one). A name with a space and a later 0xBB can still rename itself
  to a name led by 0xBB, because the rename reads the word after the
  command from the whole line (`Session.SpacedNameRenamesToGoodbye`
  shows one). The end-to-end lemma therefore requires a
  name with no 0xBB, or a one-word name that does not start with 0xBB.

`byte` is `unsigned char` (tchat/types.h:15), so the comparison with 0xBB
in `handle_incoming` can succeed; the model's bytes are `bv8`.

## Model

| member | source | states |
|---|---|---|
| Cipher.CryptKey | tchat/tchat.c:439-441 | the key is the port's low byte, or 128 when that byte is 0; it is never 0 |
| Cipher.CryptByte | tchat/tchat.c:445-446 | with a non-zero key a byte is left unchanged exactly when it equals the key, and a non-NUL byte never becomes NUL |
| Cipher.KeyByteUnchanged | tchat/tchat.c:445-446 | a string made of the key byte alone is sent unchanged, because its XOR would be NUL |
| Cipher.CryptByteFacts | tchat/tchat.c:443-450 | one byte of the transform is unchanged exactly when it equals the key, never becomes NUL, and applied twice gives the byte back |
| Cipher.XorCrypt | tchat/tchat.c:432-452 | every byte before the first NUL is transformed, the NUL and everything after it are untouched, and the string length is kept |
| Cipher.XorCryptNulFree | tchat/tchat.c:445-447 | an encrypted NUL-free string is still NUL-free and has the same `strlen` |
| Cipher.XorCryptTerminated | tchat/tchat.c:443 | the terminator of a string stays in place and is not transformed |
| Cipher.XorCryptInvolution | tchat/tchat.c:50-51 | decrypt(encrypt(b)) == b for every buffer and every non-zero key |
| Cipher.XorCryptString | tchat/tchat.c:311-312 | the string in a decrypted buffer is the decryption of the buffer's string, so copying then decrypting reads the same text as decrypting then reading |
| Network.ReadFrom | tchat/network.c:82-99 | the read loop ends in exactly one of four ways: delimiter read (handler gets the bytes through it, returns 1), buffer full (frame dropped, returns 1), peer closed (returns 0), error (exit) |
| Network.SocketRecv | tchat/network.c:74-102 | one call returns 0 exactly when the peer closes before a delimiter or a full buffer, dies exactly when the stream breaks there, and returns 1 otherwise; a delivered frame is the stream's bytes through its first delimiter |
| Network.RecvFirstDelim | tchat/network.c:92-95 | when the first delimiter is within the first 256 bytes, the handler gets exactly the bytes up to and including it and nothing after it is read |
| Network.RecvDeliversIffDelim | tchat/network.c:82-101 | the handler is called if and only if a delimiter is among the first 256 bytes of the stream |
| Network.PayloadBounded | tchat/network.c:78-94 | a delivered frame ends in its only delimiter and carries at most 255 payload bytes |
| Network.SocketSend | tchat/network.c:65-72 | the frame goes onto the wire whole exactly when `send` reports its full length; any other count is fatal |
| Network.SendString | tchat/tchat.c:193 | sending `strlen + 1` bytes of a string puts its content and exactly one delimiter on the wire |
| Network.SentStringIsOneFrame | tchat/network.c:82-101 | a string sent as a frame is read back as exactly that frame, whatever follows it on the stream |
| Editor.Keystroke | tchat/tchat.c:324-348 | one key leaves the prompt alone: a printable key is appended, backspace removes the last typed byte and does nothing at the prompt, any other key changes nothing |
| Editor.BackspaceUndoesKey | tchat/tchat.c:324-348 | a printable key followed by backspace gives back the line as it was |
| Editor.Edit | tchat/tchat.c:319-355 | the line keeps its prompt, holds only printable typed bytes and at most 79 bytes; a finished edit read no key after the end-of-line, or after the printable key that made the line 79 bytes long |
| Editor.EditStopsAtFirst | tchat/tchat.c:350-353 | editing stops the first time the line ends or reaches 79 bytes: on every shorter run of the keys it read, the loop is still waiting |
| Editor.BackspaceStopsAtPrompt | tchat/tchat.c:326-340 | backspace at the prompt changes nothing; elsewhere it removes exactly the last typed byte |
| Editor.TypingAppends | tchat/tchat.c:343-348 | printable keys that fit, then end-of-line, give the prompt followed by exactly those keys; later keys are left unread |
| Editor.TypingFillsBuffer | tchat/tchat.c:350-354 | printable keys that overflow end the line as soon as it has 79 bytes; the keys after that are left unread |
| Commands.ScanWord | tchat/tchat.c:397 | a `%s` conversion fails exactly on an all-blank input; otherwise it skips the leading blanks, reads the whole word that follows, and leaves the rest, which is empty or starts with a blank |
| Commands.ScanWordOf | tchat/tchat.c:397 | blanks, a word and a blank-led rest are always read as exactly that word and that rest |
| Commands.CommandTail | tchat/tchat.c:358 | `%*s %c` fails exactly when only blanks follow the first word; otherwise the byte read starts what follows the first word once its blanks are skipped |
| Commands.CommandOf | tchat/tchat.c:365-384 | '/' then 'q' quits and '/' then 'u' renames; any other tail is chat, a lone '/' included |
| Commands.Classify | tchat/tchat.c:358-384 | a line is left to the C library exactly when `%*s %c` finds no byte after its first word; otherwise it quits exactly when that tail starts with '/' 'q', renames exactly when it starts with '/' 'u', and is chat in every other case |
| Commands.RenameArgument | tchat/tchat.c:397 | the new username is the first word after the command byte and the byte that follows it; there is none exactly when only blanks follow those two bytes |
| Commands.TypedCommandLetter | tchat/tchat.c:365-383 | typed text whose first non-blank byte is '/' quits on 'q', renames on 'u', and is chat for any other byte |
| Commands.TypedRenameWord | tchat/tchat.c:397 | "/u", any blanks (none included) and a word make that word the new username, whatever blanks precede the '/' |
| Commands.ClassifyPromptLine | tchat/tchat.c:358-367 | with a one-word username, the command a prompt line holds depends on the typed text alone |
| Commands.PrintableRenameArgument | tchat/tchat.c:397 | the new name read from printable typed text holds only printable bytes |
| Commands.SelfRenamingLineRenames | tchat/tchat.c:358-397 | the line "a /u <0xBB>> " renames to "<0xBB>>": the word after the command is read from the whole line, so a username can hold its own rename command |
| Commands.RenameArgumentPromptLine | tchat/tchat.c:397 | with a one-word username, the new name a prompt line holds is read from the typed text alone |
| Session.Frame | tchat/tchat.c:192-193 | an encrypted string on the wire is its length plus one bytes: a NUL-free run and one delimiter |
| Session.FrameDecrypts | tchat/tchat.c:273 | decrypting a received frame gives the sent string followed by its terminator |
| Session.WireRoundTrip | tchat/network.c:82-101 | a frame of a string shorter than 256 bytes arrives whole, consumes nothing after it, and decrypts to the string |
| Session.ReceiveRemoteName | tchat/tchat.c:308-314 | the peer's name is the decrypted string of the frame: NUL-free and the same length |
| Session.Handshake | tchat/tchat.c:157-161 | the connection is made exactly when the send succeeds and the receive does not fail; the encrypted hostname is sent, the local hostname is left decrypted again; the peer's name is the decrypted string of the frame received, and stays empty when no frame arrives (the peer closed, or the buffer filled) |
| Session.HandshakeLearnsPeerHostname | tchat/tchat.c:157-161 | each side learns the other's hostname, and the rest of the stream is left for the receive loop |
| Session.HandleIncoming | tchat/tchat.c:267-306 | a frame starting with the delimiter is ignored; any other frame is decrypted, and a leading 0xBB clears the partner flag while any other first byte keeps it; the printed text is the decrypted string without that 0xBB (encrypting it again gives the frame's string); the process exits exactly when the flag is clear |
| Session.SentinelStripped | tchat/tchat.c:273-279 | any string starting with 0xBB is printed without that byte, clears the partner flag and ends the process |
| Session.EmptyFrameIgnored | tchat/tchat.c:271 | the empty string travels as a lone delimiter, and the receiver prints nothing and keeps going |
| Session.ChatLineShown | tchat/tchat.c:271-290 | a non-empty line that is not a goodbye is printed exactly as it was sent, and the partner flag is kept |
| Session.GoodbyePayload | tchat/tchat.c:421-425 | the goodbye is the byte 0xBB, then the username, then " has disconnected" (18 bytes more than the username) |
| Session.GoodbyeText | tchat/tchat.c:274-277 | without its leading byte the goodbye is the username and " has disconnected" |
| Session.SayGoodbye | tchat/tchat.c:418-430 | the goodbye goes out as one frame when `send` reports its full length, and decrypts to the goodbye text |
| Session.GoodbyeRoundTrip | tchat/tchat.c:274-301 | the receiver of a goodbye prints "<name> has disconnected", clears the partner flag and exits |
| Session.ReceiveThread | tchat/tchat.c:255-261 | the receive loop ends on a receive error only when the stream is broken, and on a close only when the peer closed |
| Session.OverflowSkipped | tchat/network.c:82-101 | 256 bytes without a delimiter are dropped unseen and the loop goes on with a fresh frame after them |
| Session.ReceiveWire | tchat/tchat.c:258-259 | a run of frames that are not goodbyes prints every non-empty string among them, in order, and then goes on with the rest of the stream |
| Session.GoodbyeEndsThread | tchat/tchat.c:292-301 | a goodbye frame ends the receive loop; nothing after it is read |
| Session.LinesThenClose | tchat/tchat.c:258-261 | frames and then a close print every non-empty string and end the loop on the close |
| Session.ChangeUsername | tchat/tchat.c:392-404 | the username stays a NUL-free string that fits the prompt line; it becomes the first word after the command byte and the byte after it when there is one, and otherwise does not change |
| Session.Compose | tchat/tchat.c:316-390 | the line sent is empty or starts with `username> `; it is never read as a goodbye when the username does not start with 0xBB, and holds no 0xBB when the username holds none; a rename keeps a safe username safe; a goodbye is chosen only when it fits the buffer; no key after the end of the line is read |
| Session.RenamedNameSafe | tchat/tchat.c:392-404 | a rename of a username with no 0xBB, or of a one-word username not led by 0xBB, gives a name of one of those two kinds |
| Session.SpacedNameRenamesToGoodbye | tchat/tchat.c:392-404 | the username "a /u <0xBB>" holds a 0xBB that does not lead it; end-of-line alone renames it to "<0xBB>>", a name led by 0xBB |
| Session.RenamedOneWord | tchat/tchat.c:397 | a one-word username is renamed to a word of the typed text, so the new name holds no 0xBB |
| Session.ComposeTypedLine | tchat/tchat.c:358-384 | a typed line is sent as chat, turned into a rename that sends the empty string, turned into the goodbye, or left to the C library, according to its typed text |
| Session.QuitSaysGoodbye | tchat/tchat.c:370-376 | "/q", after any spaces, says goodbye (when the goodbye fits the line buffer) |
| Session.RenameSendsEmptyLine | tchat/tchat.c:378-380 | "/u", any spaces (none included) and a name, after any spaces, make `name` the username and send only the empty string |
| Session.UnknownCommandSentAsChat | tchat/tchat.c:381-382 | '/' followed by any other printable byte, after any spaces, sends the whole line as chat |
| Session.SendLine | tchat/tchat.c:192-193 | the line is sent as one frame exactly when `send` reports its full length, and that frame decrypts to the line |
| Session.SendGoodbye | tchat/tchat.c:370-376 | the goodbye is sent as one frame exactly when `send` reports its full length |
| Session.SendStep | tchat/tchat.c:185-193 | one turn of the main loop sends one frame of at most 80 bytes whose text is empty, a prompt line, or the goodbye; the username invariant is kept |
| Session.StepDelivered | tchat/tchat.c:267-290 | for any username that does not start with 0xBB, what one turn sends the peer's handler prints unchanged, or ignores when it is the empty string |
| Session.Converse | tchat/tchat.c:183-194 | every line the main loop sends is a NUL-free string of at most 79 bytes, and none is taken for a goodbye when the username holds no 0xBB or is one word not led by 0xBB |
| Session.ConversationReceived | tchat/tchat.c:183-194 | end to end, for a username with no 0xBB or a one-word username not led by 0xBB: the peer prints exactly the non-empty lines sent, in order; a goodbye adds "<name> has disconnected" and ends the session |
| Args.ScanArgs | tchat/tchat.c:104-144 | the argument loop finishes exactly when every flag is -p, -u, -h, or a -c with a word after it; otherwise the first word that is none of these decides the exit: -? prints help, a final -c has no target host, and any other flag is reported as the bad argument; "host" and "connect" are never both chosen, and "connect" always has a server name |
| Args.PortUntouched | tchat/tchat.c:111-114 | without a -p that has a word after it, the port does not change |
| Args.LastPortWins | tchat/tchat.c:111-114 | the port is atoi of the word after the last -p, reduced modulo 65536 |
| Args.UserUntouched | tchat/tchat.c:115-118 | without a -u that has a word after it, the username does not change |
| Args.LastUserWins | tchat/tchat.c:115-118 | the username is the word after the last -u |
| Args.ModeUntouched | tchat/tchat.c:119-130 | without -h or -c, the mode and the server name do not change |
| Args.LastModeWins | tchat/tchat.c:119-130 | of -h and -c the last one decides the mode; after a last -c the server name is the word that follows it |
| Args.StartUp | tchat/tchat.c:99-155 | the program goes on to host or connect only when every argument was accepted; otherwise the first word not accepted decides: it prints help exactly when that word is -?, reports a missing target host exactly when it is a final -c, and otherwise reports that word as the bad argument |
| Args.StartUpMode | tchat/tchat.c:146-149 | the last -h hosts; the last -c connects to the host named after it |
| Args.StartUpNoMode | tchat/tchat.c:150-155 | accepted arguments with neither -h nor -c stop the program |
| Args.StartUpDefaults | tchat/tchat.c:99-101 | without -p the port is 5555; without -u the username is the hostname |

## Left out

- Socket set-up and teardown (create, bind, listen, accept, connect,
  shutdown, close, WSA start-up), thread creation and detaching, and
  `malloc`/`free`: plumbing with no byte logic. A failure to create the
  thread is not modelled.
- Concurrency: the receive thread and the main loop run in parallel, and
  share `msg_buff` and the partner flag. Each side is modelled on its own;
  the flag is an input of `HandleIncoming`.
- Terminal output and input modes (display.c, non_buff_input.h): cursor
  moves, echo, `puts`. `Session.HandleIncoming` says which text is
  printed, not how.
- `getchar` returning EOF, and the Windows key codes and line ending.
- `gethostname`, `atoi`, `print_help` and the IP-address printing.
  `gethostname` and `atoi` are parameters: `hostname` and `atoi`.
- The case where `sscanf(msg_buff, "%*s %c", &d)` finds nothing after
  the first word. glibc returns EOF there, so the empty-line branch is
  not taken and `d` is read uninitialised; a library that returns 0 (the
  number of items assigned) takes the branch and sends the empty string.
  The model stops such a turn with `LibraryDependent` and asserts nothing
  about what is sent.
- Buffer overruns are preconditions or an explicit outcome, not modelled
  memory corruption:
  - the username and prompt must leave room in the 79-byte line
    (`SenderInv`);
  - a "/q" whose goodbye would pass the 80-byte line buffer ends the turn
    with `Overrun`;
  - a username given with -u is not checked for length or blanks. The
    command lemmas ask for a one-word username.
- Writes that `change_username` makes through the `username` pointer
  into argv or hostname storage. Only the new username is modelled.
- The link between the receive thread closing the socket and the main
  loop's next send failing. The two are modelled separately: a send on the
  closed socket is a `reported` count other than the length, which takes
  the "sending failed" exit in `Network.SocketSend`.
- Session.ReceiveThread: its own contract states only how it ends. What
  it prints is stated by `Session.ReceiveWire`, `Session.GoodbyeEndsThread`,
  `Session.LinesThenClose` and `Session.OverflowSkipped`, for streams made
  of frames of plain strings, goodbye frames and 256-byte runs without a
  delimiter. A stream that ends inside a frame is covered only by
  `Network.ReadFrom` and `Session.HandleIncoming`.
- Session.ConversationReceived: requires `SafeName`, a username with no
  0xBB or a one-word username not led by 0xBB. Other usernames are left
  out. A name led by 0xBB makes every chat line read as a goodbye, which
  is the sentinel weakness of the protocol. A name with a space and a
  later 0xBB can rename itself into one that is led by 0xBB.

=== FILE: args.dfy ===
/** The command line of tchat (main in tchat/tchat.c): every argument word
    is visited in turn, including the words that follow -p, -u and -c as
    their values. A word starting with '-' is a flag named by its second
    byte: -p and -u take the next word as the port and the username, -c
    chooses to connect to the host named by the next word (and is fatal
    when there is none), -h chooses to host, -? prints help and exits, and
    any other flag is fatal. Of -h and -c the last one wins; with neither
    the program stops.

    `atoi` is a parameter (the C library's conversion is not modelled);
    its result is stored into an `unsigned short`, i.e. reduced modulo
    65536. The words are argv[1..] without their terminators. */
module Args {
  import opened CStrings
  import opened Cipher

  const Dash: byte := 0x2D
  const HostKey: byte := 0x68
  const ConnectKey: byte := 0x63
  const PortKey: byte := 0x70
  const UserKey: byte := 0x75
  const HelpKey: byte := 0x3F

  const DefaultPort: Port := 5555

  /** What the loop has gathered so far. `serverName` is the word after
      the last -c; a later -h clears `makeClient` but not the name. */
  datatype Options = Options(port: Port, username: seq<byte>, makeHost: bool, makeClient: bool, serverName: Option<seq<byte>>)

  /** How the argument loop ends: with options, or by exiting inside it. */
  datatype Scan =
    | Scanned(opts: Options)
    | HelpRequested
    | BadArgument(word: seq<byte>)
    | NoTargetHost

  predicate IsFlag(w: seq<byte>) {
    |w| > 0 && w[0] == Dash
  }

  /** The byte after the dash; a lone "-" has its terminator there. */
  function FlagOf(w: seq<byte>): byte {
    if |w| >= 2 then w[1] else Nul
  }

  /** The word at `i` is not a reason to exit: it is no flag, one of
      -p, -u, -h, or a -c with a word after it. */
  predicate Accepted(words: seq<seq<byte>>, i: nat)
    requires i < |words|
  {
    var c := FlagOf(words[i]);
    !IsFlag(words[i]) || c == PortKey || c == UserKey || c == HostKey || (c == ConnectKey && i + 1 < |words|)
  }

  /** The word at `i` is the first one that is a reason to exit: the
      loop visits the words in order and leaves at that word. */
  predicate FirstRejectedAt(words: seq<seq<byte>>, i: int) {
    && 0 <= i < |words| && !Accepted(words, i)
    && forall j :: 0 <= j < i ==> Accepted(words, j)
  }

  /** Past an accepted first word, the first rejected word is one position
      earlier. */
  lemma FirstRejectedShift(words: seq<seq<byte>>)
    requires |words| > 0
    ensures Accepted(words, 0) ==> forall i :: FirstRejectedAt(words, i) ==> 0 < i && FirstRejectedAt(words[1..], i - 1) && words[1..][i - 1] == words[i]
  {
    forall i | Accepted(words, 0) && FirstRejectedAt(words, i)
      ensures 0 < i && FirstRejectedAt(words[1..], i - 1) && words[1..][i - 1] == words[i]
    {
      assert words[1..][i - 1] == words[i];
      forall j | 0 <= j < i - 1
        ensures Accepted(words[1..], j)
      {
        assert words[1..][j] == words[j + 1];
        assert Accepted(words, j + 1);
      }
    }
  }

  /** What the first word does to the options when it is accepted: -p
      and -u store the word after it (if any), -c chooses to connect to
      the word after it, -h chooses to host, and a word that is no flag
      is skipped. */
  function Apply(words: seq<seq<byte>>, o: Options, atoi: seq<byte> -> int): Options
    requires |words| > 0
  {
    var w := words[0];
    var c := FlagOf(w);
    var hasNext := |words| > 1;
    if !IsFlag(w) then o
    else if c == PortKey then (if hasNext then o.(port := atoi(words[1]) % 0x1_0000) else o)
    else if c == UserKey then (if hasNext then o.(username := words[1]) else o)
    else if c == ConnectKey && hasNext then o.(makeClient := true, makeHost := false, serverName := Some(words[1]))
    else if c == HostKey then o.(makeHost := true, makeClient := false)
    else o
  }

  /** The exit taken at a word that is a reason to exit: -? prints help,
      a -c with no word after it has no target host, and any other flag
      is a bad argument. */
  function ExitAt(w: seq<byte>): Scan {
    if FlagOf(w) == HelpKey then HelpRequested
    else if FlagOf(w) == ConnectKey then NoTargetHost
    else BadArgument(w)
  }

  /** The `while (--argc > 0)` loop over the words still to visit. The
      first word that is a reason to exit decides which exit is taken. */
  function ScanArgs(words: seq<seq<byte>>, o: Options, atoi: seq<byte> -> int): (r: Scan)
    decreases |words|
    ensures r.Scanned? <==> forall i :: 0 <= i < |words| ==> Accepted(words, i)
    ensures r.BadArgument? ==>
              && r.word in words && IsFlag(r.word)
              && FlagOf(r.word) !in {PortKey, UserKey, HostKey, ConnectKey, HelpKey}
    ensures r.HelpRequested? ==> exists i :: 0 <= i < |words| && IsFlag(words[i]) && FlagOf(words[i]) == HelpKey
    ensures r.NoTargetHost? ==> |words| > 0 && IsFlag(words[|words| - 1]) && FlagOf(words[|words| - 1]) == ConnectKey
    ensures forall i :: FirstRejectedAt(words, i) ==> r == ExitAt(words[i])
    ensures r.Scanned? && !(o.makeHost && o.makeClient) ==> !(r.opts.makeHost && r.opts.makeClient)
    ensures r.Scanned? && (o.makeClient ==> o.serverName.Some?) ==> (r.opts.makeClient ==> r.opts.serverName.Some?)
  {
    if |words| == 0 then Scanned(o)
    else if Accepted(words, 0) then
      AcceptedShift(words);
      FirstRejectedShift(words);
      ScanArgs(words[1..], Apply(words, o, atoi), atoi)
    else
      assert FirstRejectedAt(words, 0);
      ExitAt(words[0])
  }

  /** All words are accepted exactly when the first one is and all after
      it are. */
  lemma AcceptedShift(words: seq<seq<byte>>)
    requires |words| > 0
    ensures (forall i :: 0 <= i < |words| ==> Accepted(words, i))
        <==> Accepted(words, 0) && forall i :: 0 <= i < |words| - 1 ==> Accepted(words[1..], i)
  {
    forall i | 0 <= i < |words| - 1
      ensures Accepted(words, i + 1) <==> Accepted(words[1..], i)
    {
      assert words[1..][i] == words[i + 1];
    }
    if forall i :: 0 <= i < |words| - 1 ==> Accepted(words[1..], i) {
      forall i | 1 <= i < |words|
        ensures Accepted(words, i)
      {
        assert Accepted(words[1..], i - 1);
      }
    }
  }

  /** The word at `i` is `-<key>` with a word after it, which it sets. */
  predicate SetsAt(words: seq<seq<byte>>, i: nat, key: byte)
    requires i < |words|
  {
    i + 1 < |words| && IsFlag(words[i]) && FlagOf(words[i]) == key
  }

  /** No word sets `key`. */
  predicate NeverSet(words: seq<seq<byte>>, key: byte) {
    forall j :: 0 <= j < |words| ==> !SetsAt(words, j, key)
  }

  /** The word at `i` is the last one that sets `key`. */
  predicate LastSetAt(words: seq<seq<byte>>, i: nat, key: byte) {
    && i < |words| && SetsAt(words, i, key)
    && forall j :: i < j < |words| ==> !SetsAt(words, j, key)
  }

  /** Moving past the first word shifts every position by one. */
  lemma SetsAtShift(words: seq<seq<byte>>, key: byte)
    requires |words| > 0
    ensures forall j :: 0 <= j < |words| - 1 ==> (SetsAt(words[1..], j, key) <==> SetsAt(words, j + 1, key))
  {
    forall j | 0 <= j < |words| - 1
      ensures SetsAt(words[1..], j, key) <==> SetsAt(words, j + 1, key)
    {
      assert words[1..][j] == words[j + 1];
    }
  }

  /** Past the first word, the last setting is one position earlier; when
      the first word was the last setting, the rest never sets. */
  lemma LastSetTail(words: seq<seq<byte>>, i: nat, key: byte)
    requires LastSetAt(words, i, key)
    ensures i == 0 ==> NeverSet(words[1..], key)
    ensures i > 0 ==> LastSetAt(words[1..], i - 1, key)
  {
    SetsAtShift(words, key);
    if i == 0 {
      forall j | 0 <= j < |words| - 1
        ensures !SetsAt(words[1..], j, key)
      {
        assert !SetsAt(words, j + 1, key);
      }
    } else {
      assert SetsAt(words[1..], i - 1, key);
      forall j | i - 1 < j < |words| - 1
        ensures !SetsAt(words[1..], j, key)
      {
        assert !SetsAt(words, j + 1, key);
      }
    }
  }

  /** The tail of a word list that never sets `key` never sets it. */
  lemma NeverSetTail(words: seq<seq<byte>>, key: byte)
    requires |words| > 0 && NeverSet(words, key)
    ensures NeverSet(words[1..], key) && !SetsAt(words, 0, key)
  {
    SetsAtShift(words, key);
    forall j | 0 <= j < |words| - 1
      ensures !SetsAt(words[1..], j, key)
    {
      assert !SetsAt(words, j + 1, key);
    }
    assert !SetsAt(words, 0, key);
  }

  /** With no -p that has a word after it, the port stays as it was. */
  lemma {:induction false} PortUntouched(words: seq<seq<byte>>, o: Options, atoi: seq<byte> -> int)
    requires NeverSet(words, PortKey)
    ensures ScanArgs(words, o, atoi).Scanned? ==> ScanArgs(words, o, atoi).opts.port == o.port
    decreases |words|
  {
    if |words| > 0 {
      NeverSetTail(words, PortKey);
      var w := words[0];
      if IsFlag(w) && FlagOf(w) == ConnectKey && |words| > 1 {
        PortUntouched(words[1..], o.(makeClient := true, makeHost := false, serverName := Some(words[1])), atoi);
      } else if IsFlag(w) && FlagOf(w) == UserKey && |words| > 1 {
        PortUntouched(words[1..], o.(username := words[1]), atoi);
      } else if IsFlag(w) && FlagOf(w) == HostKey {
        PortUntouched(words[1..], o.(makeHost := true, makeClient := false), atoi);
      } else {
        PortUntouched(words[1..], o, atoi);
      }
    }
  }

  /** The port is the value of the last -p that has a word after it. */
  lemma {:induction false} LastPortWins(words: seq<seq<byte>>, o: Options, atoi: seq<byte> -> int, i: nat)
    requires LastSetAt(words, i, PortKey)
    ensures ScanArgs(words, o, atoi).Scanned? ==> ScanArgs(words, o, atoi).opts.port == atoi(words[i + 1]) % 0x1_0000
    decreases |words|
  {
    LastSetTail(words, i, PortKey);
    var w := words[0];
    if i == 0 {
      PortUntouched(words[1..], o.(port := atoi(words[1]) % 0x1_0000), atoi);
    } else if IsFlag(w) && FlagOf(w) == ConnectKey && |words| > 1 {
      LastPortWins(words[1..], o.(makeClient := true, makeHost := false, serverName := Some(words[1])), atoi, i - 1);
    } else if IsFlag(w) && FlagOf(w) == UserKey && |words| > 1 {
      LastPortWins(words[1..], o.(username := words[1]), atoi, i - 1);
    } else if IsFlag(w) && FlagOf(w) == HostKey {
      LastPortWins(words[1..], o.(makeHost := true, makeClient := false), atoi, i - 1);
    } else if IsFlag(w) && FlagOf(w) == PortKey && |words| > 1 {
      LastPortWins(words[1..], o.(port := atoi(words[1]) % 0x1_0000), atoi, i - 1);
    } else {
      LastPortWins(words[1..], o, atoi, i - 1);
    }
  }

  /** With no -u that has a word after it, the username stays as it was. */
  lemma {:induction false} UserUntouched(words: seq<seq<byte>>, o: Options, atoi: seq<byte> -> int)
    requires NeverSet(words, UserKey)
    ensures ScanArgs(words, o, atoi).Scanned? ==> ScanArgs(words, o, atoi).opts.username == o.username
    decreases |words|
  {
    if |words| > 0 {
      NeverSetTail(words, UserKey);
      var w := words[0];
      if IsFlag(w) && FlagOf(w) == ConnectKey && |words| > 1 {
        UserUntouched(words[1..], o.(makeClient := true, makeHost := false, serverName := Some(words[1])), atoi);
      } else if IsFlag(w) && FlagOf(w) == PortKey && |words| > 1 {
        UserUntouched(words[1..], o.(port := atoi(words[1]) % 0x1_0000), atoi);
      } else if IsFlag(w) && FlagOf(w) == HostKey {
        UserUntouched(words[1..], o.(makeHost := true, makeClient := false), atoi);
      } else {
        UserUntouched(words[1..], o, atoi);
      }
    }
  }

  /** The username is the word after the last -u that has one. */
  lemma {:induction false} LastUserWins(words: seq<seq<byte>>, o: Options, atoi: seq<byte> -> int, i: nat)
    requires LastSetAt(words, i, UserKey)
    ensures ScanArgs(words, o, atoi).Scanned? ==> ScanArgs(words, o, atoi).opts.username == words[i + 1]
    decreases |words|
  {
    LastSetTail(words, i, UserKey);
    var w := words[0];
    if i == 0 {
      UserUntouched(words[1..], o.(username := words[1]), atoi);
    } else if IsFlag(w) && FlagOf(w) == ConnectKey && |words| > 1 {
      LastUserWins(words[1..], o.(makeClient := true, makeHost := false, serverName := Some(words[1])), atoi, i - 1);
    } else if IsFlag(w) && FlagOf(w) == PortKey && |words| > 1 {
      LastUserWins(words[1..], o.(port := atoi(words[1]) % 0x1_0000), atoi, i - 1);
    } else if IsFlag(w) && FlagOf(w) == HostKey {
      LastUserWins(words[1..], o.(makeHost := true, makeClient := false), atoi, i - 1);
    } else if IsFlag(w) && FlagOf(w) == UserKey && |words| > 1 {
      LastUserWins(words[1..], o.(username := words[1]), atoi, i - 1);
    } else {
      LastUserWins(words[1..], o, atoi, i - 1);
    }
  }

  /** The word at `i` is -h or -c. */
  predicate ModeAt(words: seq<seq<byte>>, i: nat)
    requires i < |words|
  {
    IsFlag(words[i]) && (FlagOf(words[i]) == HostKey || FlagOf(words[i]) == ConnectKey)
  }

  predicate NoModeFlag(words: seq<seq<byte>>) {
    forall j :: 0 <= j < |words| ==> !ModeAt(words, j)
  }

  /** The word at `i` is the last -h or -c. */
  predicate LastModeAt(words: seq<seq<byte>>, i: nat) {
    && i < |words| && ModeAt(words, i)
    && forall j :: i < j < |words| ==> !ModeAt(words, j)
  }

  /** Past the first word, the last mode flag is one position earlier; when
      the first word was the last mode flag, the rest holds none. */
  lemma ModeTail(words: seq<seq<byte>>, i: nat)
    requires |words| > 0
    ensures NoModeFlag(words) ==> NoModeFlag(words[1..]) && !ModeAt(words, 0)
    ensures LastModeAt(words, i) && i == 0 ==> NoModeFlag(words[1..])
    ensures LastModeAt(words, i) && i > 0 ==> LastModeAt(words[1..], i - 1)
  {
    forall j | 0 <= j < |words| - 1
      ensures ModeAt(words[1..], j) <==> ModeAt(words, j + 1)
    {
      assert words[1..][j] == words[j + 1];
    }
  }

  /** With no -h or -c the mode flags and the server name stay as they were. */
  lemma {:induction false} ModeUntouched(words: seq<seq<byte>>, o: Options, atoi: seq<byte> -> int)
    requires NoModeFlag(words)
    ensures var r := ScanArgs(words, o, atoi);
      r.Scanned? ==> r.opts.makeHost == o.makeHost && r.opts.makeClient == o.makeClient && r.opts.serverName == o.serverName
    decreases |words|
  {
    if |words| > 0 {
      ModeTail(words, 0);
      var w := words[0];
      if IsFlag(w) && FlagOf(w) == PortKey && |words| > 1 {
        ModeUntouched(words[1..], o.(port := atoi(words[1]) % 0x1_0000), atoi);
      } else if IsFlag(w) && FlagOf(w) == UserKey && |words| > 1 {
        ModeUntouched(words[1..], o.(username := words[1]), atoi);
      } else {
        ModeUntouched(words[1..], o, atoi);
      }
    }
  }

  /** Of -h and -c the last one decides the mode; after a last -c the
      server name is the word following it. */
  lemma {:induction false} LastModeWins(words: seq<seq<byte>>, o: Options, atoi: seq<byte> -> int, i: nat)
    requires LastModeAt(words, i)
    ensures var r := ScanArgs(words, o, atoi);
      r.Scanned? ==>
        && r.opts.makeHost == (FlagOf(words[i]) == HostKey)
        && r.opts.makeClient == (FlagOf(words[i]) == ConnectKey)
        && (FlagOf(words[i]) == ConnectKey ==> i + 1 < |words| && r.opts.serverName == Some(words[i + 1]))
    decreases |words|
  {
    ModeTail(words, i);
    var w := words[0];
    if i == 0 {
      if FlagOf(w) == HostKey {
        ModeUntouched(words[1..], o.(makeHost := true, makeClient := false), atoi);
      } else if |words| > 1 {
        ModeUntouched(words[1..], o.(makeClient := true, makeHost := false, serverName := Some(words[1])), atoi);
      }
    } else if IsFlag(w) && FlagOf(w) == ConnectKey && |words| > 1 {
      LastModeWins(words[1..], o.(makeClient := true, makeHost := false, serverName := Some(words[1])), atoi, i - 1);
    } else if IsFlag(w) && FlagOf(w) == HostKey {
      LastModeWins(words[1..], o.(makeHost := true, makeClient := false), atoi, i - 1);
    } else if IsFlag(w) && FlagOf(w) == PortKey && |words| > 1 {
      LastModeWins(words[1..], o.(port := atoi(words[1]) % 0x1_0000), atoi, i - 1);
    } else if IsFlag(w) && FlagOf(w) == UserKey && |words| > 1 {
      LastModeWins(words[1..], o.(username := words[1]), atoi, i - 1);
    } else {
      LastModeWins(words[1..], o, atoi, i - 1);
    }
  }

  // ---------------------------------------------------------------------
  // Start-up

  datatype Failure = BadArgumentGiven(word: seq<byte>) | MissingTargetHost | NoModeChosen

  /** What main goes on to do after the argument loop: host a session,
      connect to one, or exit (help, or a fatal error). */
  datatype Launch =
    | Serve(port: Port, username: seq<byte>)
    | Connect(server: seq<byte>, port: Port, username: seq<byte>)
    | PrintHelp
    | Fatal(why: Failure)

  /** Lines 99-155 of main: the defaults (port 5555, the hostname as
      username, no mode), the argument loop, and the choice of mode. */
  function StartUp(hostname: seq<byte>, words: seq<seq<byte>>, atoi: seq<byte> -> int): (r: Launch)
    ensures r.Serve? || r.Connect? || r == Fatal(NoModeChosen) <==> forall i :: 0 <= i < |words| ==> Accepted(words, i)
    ensures r.PrintHelp? ==> exists i :: 0 <= i < |words| && IsFlag(words[i]) && FlagOf(words[i]) == HelpKey
    ensures r.Fatal? && r.why.BadArgumentGiven? ==> r.why.word in words && IsFlag(r.why.word)
    ensures r == Fatal(MissingTargetHost) ==> |words| > 0 && IsFlag(words[|words| - 1]) && FlagOf(words[|words| - 1]) == ConnectKey
    ensures forall i :: FirstRejectedAt(words, i) ==>
              && (r.PrintHelp? <==> FlagOf(words[i]) == HelpKey)
              && (r == Fatal(MissingTargetHost) <==> FlagOf(words[i]) == ConnectKey)
              && (r.Fatal? && r.why.BadArgumentGiven? <==> FlagOf(words[i]) != HelpKey && FlagOf(words[i]) != ConnectKey)
              && (r.Fatal? && r.why.BadArgumentGiven? ==> r.why.word == words[i])
  {
    match ScanArgs(words, Options(DefaultPort, hostname, false, false, None), atoi)
    case HelpRequested => PrintHelp
    case BadArgument(w) => Fatal(BadArgumentGiven(w))
    case NoTargetHost => Fatal(MissingTargetHost)
    case Scanned(o) =>
      if o.makeHost then Serve(o.port, o.username)
      else if o.makeClient then Connect(o.serverName.value, o.port, o.username)
      else Fatal(NoModeChosen)
  }

  /** With every word accepted, the last -h hosts and the last -c connects
      to the host named after it; with neither the program stops. */
  lemma StartUpMode(hostname: seq<byte>, words: seq<seq<byte>>, atoi: seq<byte> -> int, i: nat)
    requires forall j :: 0 <= j < |words| ==> Accepted(words, j)
    requires LastModeAt(words, i)
    ensures var r := StartUp(hostname, words, atoi);
      && (FlagOf(words[i]) == HostKey ==> r.Serve?)
      && (FlagOf(words[i]) == ConnectKey ==> r.Connect? && i + 1 < |words| && r.server == words[i + 1])
  {
    LastModeWins(words, Options(DefaultPort, hostname, false, false, None), atoi, i);
  }

  lemma StartUpNoMode(hostname: seq<byte>, words: seq<seq<byte>>, atoi: seq<byte> -> int)
    requires forall j :: 0 <= j < |words| ==> Accepted(words, j)
    requires NoModeFlag(words)
    ensures StartUp(hostname, words, atoi) == Fatal(NoModeChosen)
  {
    ModeUntouched(words, Options(DefaultPort, hostname, false, false, None), atoi);
  }

  /** Without -p the port is 5555, and without -u the username is the
      hostname. */
  lemma StartUpDefaults(hostname: seq<byte>, words: seq<seq<byte>>, atoi: seq<byte> -> int)
    ensures var r := StartUp(hostname, words, atoi);
      && (r.Serve? || r.Connect? ==> NeverSet(words, PortKey) ==> r.port == DefaultPort)
      && (r.Serve? || r.Connect? ==> NeverSet(words, UserKey) ==> r.username == hostname)
  {
    var o := Options(DefaultPort, hostname, false, false, None);
    if NeverSet(words, PortKey) {
      PortUntouched(words, o, atoi);
    }
    if NeverSet(words, UserKey) {
      UserUntouched(words, o, atoi);
    }
  }
}

=== FILE: cipher.dfy ===
/** The chat's obfuscation layer (xor_crypt in tchat/tchat.c): every byte of a
    NUL-terminated string is XORed with a one-byte key derived from the port,
    except a byte equal to the key, which would turn into a NUL. `encrypt`
    and `decrypt` are both this one function. */
module Cipher {
  import opened CStrings

  /** A port number as the program stores it (`unsigned short`). */
  type Port = p: int | 0 <= p < 0x1_0000

  /** The key: the port truncated to a byte, or 128 when that byte is 0. */
  function CryptKey(port: Port): (key: byte)
    ensures key != 0
    ensures port % 256 != 0 ==> key as int == port % 256
    ensures port % 256 == 0 ==> key == 128
  {
    var low := port % 256;
    if low == 0 then 128 else ByteOf(low)
  }

  /** One byte of the transform: `b ^ key`, unless that would be NUL. */
  function CryptByte(key: byte, b: byte): (r: byte)
    ensures key != 0 ==> (r == b <==> b == key)
    ensures key != 0 && b != Nul ==> r != Nul
  {
    if b ^ key != Nul then b ^ key else b
  }

  /** The transform leaves a byte unchanged exactly when it equals the key,
      never produces NUL from a non-NUL byte, and undoes itself on non-NUL bytes. */
  lemma CryptByteFacts(key: byte, b: byte)
    requires key != 0
    ensures CryptByte(key, b) == b <==> b == key
    ensures b != Nul ==> CryptByte(key, b) != Nul
    ensures b != Nul ==> CryptByte(key, CryptByte(key, b)) == b
  {
  }

  /** xor_crypt applied in place to the buffer `buf`: the bytes before the
      first NUL are transformed one by one, the rest of the buffer is left
      alone. */
  function XorCrypt(key: byte, buf: seq<byte>): (r: seq<byte>)
    requires key != 0
    ensures |r| == |buf|
    ensures |CString(r)| == |CString(buf)|
    ensures forall i :: 0 <= i < |CString(buf)| ==> r[i] == CryptByte(key, buf[i])
    ensures r[|CString(buf)|..] == buf[|CString(buf)|..]
  {
    var k := |CString(buf)|;
    var head := seq(k, i requires 0 <= i < k => CryptByte(key, buf[i]));
    var r := head + buf[k..];
    assert NoNul(r[..k]) by {
      forall i | 0 <= i < k
        ensures r[..k][i] != Nul
      {
        CryptByteFacts(key, buf[i]);
      }
    }
    CStringEndsAt(r, k);
    r
  }

  /** A NUL-free string stays NUL-free and keeps its length, so `strlen` of
      an encrypted buffer is `strlen` of the plain one. */
  lemma XorCryptNulFree(key: byte, s: seq<byte>)
    requires key != 0
    requires NoNul(s)
    ensures NoNul(XorCrypt(key, s))
    ensures |XorCrypt(key, s)| == |s|
  {
    CStringOfNulFree(s);
    CStringOfNulFree(XorCrypt(key, s)[..|s|]);
  }

  /** A string followed by its terminator: the string is transformed and
      the terminator stays where it is. */
  lemma XorCryptTerminated(key: byte, s: seq<byte>)
    requires key != 0
    requires NoNul(s)
    ensures XorCrypt(key, s + [Nul]) == XorCrypt(key, s) + [Nul]
  {
    CStringOfTerminated(s, []);
    assert s + [Nul] + [] == s + [Nul];
    CStringOfNulFree(s);
    var r := XorCrypt(key, s + [Nul]);
    assert r[|s|..] == [Nul];
    assert r == r[..|s|] + r[|s|..];
  }

  /** Applying the transform twice gives back the buffer, for every buffer
      and every non-zero key: `decrypt(encrypt(b)) == b`. */
  lemma XorCryptInvolution(key: byte, buf: seq<byte>)
    requires key != 0
    ensures XorCrypt(key, XorCrypt(key, buf)) == buf
  {
    var twice := XorCrypt(key, XorCrypt(key, buf));
    var k := |CString(buf)|;
    forall i | 0 <= i < |buf|
      ensures twice[i] == buf[i]
    {
      if i < k {
        assert CString(buf)[i] == buf[i];
        CryptByteFacts(key, buf[i]);
      } else {
        assert twice[k..][i - k] == buf[k..][i - k];
      }
    }
  }

  /** The string held in a transformed buffer is the transform of the
      string held in the buffer, so `decrypt` and then `strlen`/`puts` see
      the same text as `strcpy` and then `decrypt`. */
  lemma XorCryptString(key: byte, buf: seq<byte>)
    requires key != 0
    ensures CString(XorCrypt(key, buf)) == XorCrypt(key, CString(buf))
  {
    var c := CString(buf);
    var k := |c|;
    var r := XorCrypt(key, buf);
    CStringOfNulFree(c);
    assert CString(r) == r[..k];
    forall i | 0 <= i < k
      ensures r[..k][i] == XorCrypt(key, c)[i]
    {
      assert c[i] == buf[i];
    }
  }

  /** A byte equal to the key is sent unchanged (the zero-preservation case). */
  lemma KeyByteUnchanged(key: byte)
    requires key != 0
    ensures XorCrypt(key, [key]) == [key]
  {
  }
}

=== FILE: commands.dfy ===
/** Command detection in get_input and change_username (tchat/tchat.c). The
    finished line is inspected with three `sscanf` calls; each is modelled
    as the C library scans a string (C locale):
      "%*s %c"         the first non-whitespace byte after the first word;
      "%*s %*c%c"      the byte right after that one (no whitespace skip);
      "%*s %*c%*c %s"  the next word after those two bytes.
    `%s` skips whitespace and then needs at least one non-whitespace byte;
    `%c` takes the next byte as it is; both fail at the end of the string.
    Scanning is written over the unread rest of the string. */
module Commands {
  import opened CStrings

  const Slash: byte := 0x2F
  const QuitKey: byte := 0x71
  const RenameKey: byte := 0x75

  /** What is left after leading whitespace is skipped (a blank in the
      format, or the start of `%s`). */
  function SkipBlanks(s: seq<byte>): (r: seq<byte>)
    ensures |r| <= |s| && r == s[|s| - |r|..]
    ensures |r| > 0 ==> !IsSpace(r[0])
    ensures forall k :: 0 <= k < |s| - |r| ==> IsSpace(s[k])
  {
    if |s| > 0 && IsSpace(s[0]) then
      var r := SkipBlanks(s[1..]);
      DropAfterHead(s, |s| - |r|);
      assert forall k :: 0 < k < |s| - |r| ==> s[k] == s[1..][k - 1];
      r
    else s
  }

  /** The longest whitespace-free prefix of `s`, and the rest. */
  function SplitWord(s: seq<byte>): (r: (seq<byte>, seq<byte>))
    ensures r.0 + r.1 == s
    ensures NoSpace(r.0)
    ensures |r.1| > 0 ==> IsSpace(r.1[0])
  {
    if |s| == 0 || IsSpace(s[0]) then ([], s)
    else
      var (w, rest) := SplitWord(s[1..]);
      ConcatAssoc([s[0]], w, rest);
      HeadTail(s);
      assert NoSpace([s[0]] + w) by {
        assert forall i :: 0 < i <= |w| ==> ([s[0]] + w)[i] == w[i - 1];
      }
      ([s[0]] + w, rest)
  }

  /** Blanks, then a word in front of the rest of `s`: leading whitespace,
      the non-empty blank-free `w`, and `rest`, which is empty or starts
      with whitespace (so `w` is the whole word). */
  predicate LeadWord(s: seq<byte>, w: seq<byte>, rest: seq<byte>) {
    var k := |s| - |w| - |rest|;
    && 0 <= k
    && (forall j :: 0 <= j < k ==> IsSpace(s[j]))
    && s[k..] == w + rest
    && 0 < |w| && NoSpace(w)
    && (|rest| > 0 ==> IsSpace(rest[0]))
  }

  /** All whitespace. */
  predicate Blank(s: seq<byte>) {
    forall k :: 0 <= k < |s| ==> IsSpace(s[k])
  }

  /** A `%s` conversion: the word read and the unread rest, or None when
      only whitespace is left. */
  function ScanWord(s: seq<byte>): (r: Option<(seq<byte>, seq<byte>)>)
    ensures r.None? <==> Blank(s)
    ensures r.Some? ==> LeadWord(s, r.value.0, r.value.1)
    ensures r.Some? && NoNul(s) ==> NoNul(r.value.0) && NoNul(r.value.1)
    ensures r.Some? ==> forall b :: b in r.value.0 || b in r.value.1 ==> b in s
  {
    var t := SkipBlanks(s);
    if |t| == 0 then None
    else
      var (w, rest) := SplitWord(t);
      NoNulParts(s[..|s| - |t|], t);
      assert s[..|s| - |t|] + t == s;
      NoNulParts(w, rest);
      Some((w, rest))
  }

  /** Leading whitespace is skipped up to the first other byte, so a run of
      blanks in front of a string that does not start with one is dropped
      exactly. */
  lemma SkipBlanksOf(pre: seq<byte>, t: seq<byte>)
    requires Blank(pre) && (|t| > 0 ==> !IsSpace(t[0]))
    ensures SkipBlanks(pre + t) == t
  {
    var s := pre + t;
    var r := SkipBlanks(s);
    assert forall j :: 0 <= j < |pre| ==> s[j] == pre[j];
    assert |t| > 0 ==> s[|pre|] == t[0];
    assert |r| == |t|;
    assert s[|pre|..] == t;
  }

  /** The split of a string into blanks, a word and the rest is unique. */
  lemma LeadWordUnique(s: seq<byte>, w: seq<byte>, rest: seq<byte>, w': seq<byte>, rest': seq<byte>)
    requires LeadWord(s, w, rest) && LeadWord(s, w', rest')
    ensures w == w' && rest == rest'
  {
    var k := |s| - |w| - |rest|;
    var k' := |s| - |w'| - |rest'|;
    assert s[k] == w[0] by { assert s[k..][0] == (w + rest)[0]; }
    assert s[k'] == w'[0] by { assert s[k'..][0] == (w' + rest')[0]; }
    assert !IsSpace(w[0]) && !IsSpace(w'[0]);
    assert k == k';
    var u := s[k..];
    assert u == w + rest && u == w' + rest';
    assert forall j :: 0 <= j < |w| ==> u[j] == w[j];
    assert forall j :: 0 <= j < |w'| ==> u[j] == w'[j];
    assert |rest| > 0 ==> u[|w|] == rest[0];
    assert |rest'| > 0 ==> u[|w'|] == rest'[0];
    assert |w| == |w'|;
    assert w == u[..|w|] && w' == u[..|w'|];
    assert rest == u[|w|..] && rest' == u[|w'|..];
  }

  /** `%s` reads the first word: blanks, a word and a blank-led rest are
      scanned as exactly that word and that rest. */
  lemma ScanWordOf(s: seq<byte>, w: seq<byte>, rest: seq<byte>)
    requires LeadWord(s, w, rest)
    ensures ScanWord(s) == Some((w, rest))
  {
    var k := |s| - |w| - |rest|;
    assert s[k] == w[0] by { assert s[k..][0] == (w + rest)[0]; }
    assert !Blank(s);
    var r := ScanWord(s);
    LeadWordUnique(s, w, rest, r.value.0, r.value.1);
  }

  /** `sscanf(line, "%*s %c", &d)` reads `d` from the start of the returned
      tail: the rest after the first word, with its leading whitespace
      skipped. None when the line has no byte after its first word. */
  function CommandTail(line: seq<byte>): (r: Option<seq<byte>>)
    ensures ScanWord(line).None? ==> r.None?
    ensures ScanWord(line).Some? ==> var rest := ScanWord(line).value.1;
      && (r.None? <==> Blank(rest))
      && (r.Some? ==> |r.value| <= |rest| && Blank(rest[..|rest| - |r.value|]) && r.value == rest[|rest| - |r.value|..])
    ensures r.Some? ==> 0 < |r.value| && |r.value| + 1 <= |line| && !IsSpace(r.value[0])
    ensures r.Some? && NoNul(line) ==> NoNul(r.value)
    ensures r.Some? ==> forall b :: b in r.value ==> b in line
  {
    match ScanWord(line)
    case None => None
    case Some((_, rest)) =>
      var t := SkipBlanks(rest);
      if |t| == 0 then None else Some(t)
  }

  /** What get_input does with a finished line. `Unscanned` is a line
      with nothing after its first word: there the program's behaviour
      depends on what the C library's sscanf returns (see the README). */
  datatype Command = Quit | Rename | Chat | Unscanned

  /** The command a tail starting at the command byte selects: '/' then
      'q' quits and '/' then 'u' renames. Anything else is chat, a lone '/'
      included, because `"%*s %*c%c"` then fails and leaves `d` at '/'. */
  function CommandOf(t: seq<byte>): (c: Command)
    requires |t| > 0
    ensures c != Unscanned
    ensures c == Quit <==> t[0] == Slash && |t| > 1 && t[1] == QuitKey
    ensures c == Rename <==> t[0] == Slash && |t| > 1 && t[1] == RenameKey
  {
    if t[0] != Slash then Chat
    else
      // "%*s %*c%c" fails at the end of the line and leaves d == '/'
      var d := if |t| > 1 then t[1] else Slash;
      if d == QuitKey then Quit
      else if d == RenameKey then Rename
      else Chat
  }

  /** The dispatch of get_input: a line with no byte after its first word
      is left to the C library (`Unscanned`); any other line is read by
      the command byte and the byte after it. */
  function Classify(line: seq<byte>): (c: Command)
    ensures c == Unscanned <==> CommandTail(line).None?
    ensures c == Quit <==>
              CommandTail(line).Some? && |CommandTail(line).value| > 1
              && CommandTail(line).value[0] == Slash && CommandTail(line).value[1] == QuitKey
    ensures c == Rename <==>
              CommandTail(line).Some? && |CommandTail(line).value| > 1
              && CommandTail(line).value[0] == Slash && CommandTail(line).value[1] == RenameKey
  {
    match CommandTail(line)
    case None => Unscanned
    case Some(t) => CommandOf(t)
  }

  /** The word after the two command bytes of a tail: the first word of
      what follows them, if there is one. */
  function WordAfterCommand(t: seq<byte>): (r: Option<seq<byte>>)
    ensures r.None? <==> |t| < 2 || Blank(t[2..])
    ensures r.Some? ==> exists rest :: LeadWord(t[2..], r.value, rest)
    ensures r.Some? ==> 0 < |r.value| && |r.value| + 2 <= |t| && NoSpace(r.value)
    ensures r.Some? && NoNul(t) ==> NoNul(r.value)
    ensures r.Some? ==> forall b :: b in r.value ==> b in t
  {
    if |t| < 2 then None
    else
      match ScanWord(t[2..])
      case None => None
      case Some((w, rest)) =>
        assert LeadWord(t[2..], w, rest);
        Some(w)
  }

  /** What `sscanf(line, "%*s %*c%*c %s", username)` stores: past the first
      word and the blanks after it, the command byte and the byte after it
      are skipped and the next word is read, if there is one. */
  function RenameArgument(line: seq<byte>): (r: Option<seq<byte>>)
    ensures r.None? <==> CommandTail(line).None? || |CommandTail(line).value| < 2 || Blank(CommandTail(line).value[2..])
    ensures r.Some? ==> exists rest :: LeadWord(CommandTail(line).value[2..], r.value, rest)
    ensures r.Some? ==> 0 < |r.value| && |r.value| + 3 <= |line| && NoSpace(r.value)
    ensures r.Some? && NoNul(line) ==> NoNul(r.value)
    ensures r.Some? ==> forall b :: b in r.value ==> b in line
  {
    match CommandTail(line)
    case None => None
    case Some(t) => WordAfterCommand(t)
  }

  /** The reading of a line through the text typed after the prompt: the
      first non-blank typed byte and the one after it decide. */
  function TypedCommand(typed: seq<byte>): Command {
    var t := SkipBlanks(typed);
    if |t| == 0 then Unscanned
    else if t[0] != Slash then Chat
    else if |t| > 1 && t[1] == QuitKey then Quit
    else if |t| > 1 && t[1] == RenameKey then Rename
    else Chat
  }

  /** The new name in terms of the typed text: the first word after the
      two command bytes. */
  function TypedRenameArgument(typed: seq<byte>): Option<seq<byte>> {
    WordAfterCommand(SkipBlanks(typed))
  }

  /** The line "a /u <0xBB>> ", byte by byte: a username holding its own
      rename command, then the prompt. */
  predicate SelfRenamingLine(line: seq<byte>) {
    && |line| == 8 && line[0] == 0x61 && line[1] == 0x20 && line[2] == Slash && line[3] == RenameKey
    && line[4] == 0x20 && line[5] == 0xBB && line[6] == 0x3E && line[7] == 0x20
  }

  /** Its first word is "a", followed by the rest of the line. */
  lemma SelfRenamingLineWord(line: seq<byte>)
    requires SelfRenamingLine(line)
    ensures ScanWord(line) == Some(([0x61], line[1..]))
  {
    var rest := line[1..];
    assert LeadWord(line, [0x61], rest) by {
      assert line == [0x61] + rest;
    }
    ScanWordOf(line, [0x61], rest);
  }

  /** The blank after it is skipped up to the '/'. */
  lemma SelfRenamingLineBlank(line: seq<byte>)
    requires SelfRenamingLine(line)
    ensures SkipBlanks(line[1..]) == line[2..]
  {
    var t := line[2..];
    assert line[1..] == [0x20 as byte] + t;
    SkipBlanksOf([0x20], t);
  }

  /** So the command tail starts at the '/'. */
  lemma SelfRenamingLineTail(line: seq<byte>)
    requires SelfRenamingLine(line)
    ensures CommandTail(line) == Some(line[2..])
  {
    SelfRenamingLineWord(line);
    SelfRenamingLineBlank(line);
  }

  /** The tail "/u <0xBB>> " renames to "<0xBB>>". */
  lemma SelfRenamingCommand(t: seq<byte>)
    requires |t| == 6 && t[0] == Slash && t[1] == RenameKey && t[2] == 0x20
    requires t[3] == 0xBB && t[4] == 0x3E && t[5] == 0x20
    ensures CommandOf(t) == Rename && WordAfterCommand(t) == Some([0xBB, 0x3E])
  {
    var after := t[2..];
    assert after == [0x20, 0xBB, 0x3E, 0x20];
    assert LeadWord(after, [0xBB, 0x3E], [0x20]);
    ScanWordOf(after, [0xBB, 0x3E], [0x20]);
  }

  /** The line "a /u <0xBB>> " is a rename to "<0xBB>>": the word after
      the command is read from the whole line, username included. */
  lemma SelfRenamingLineRenames(line: seq<byte>)
    requires SelfRenamingLine(line)
    ensures Classify(line) == Rename
    ensures RenameArgument(line) == Some([0xBB, 0x3E])
  {
    SelfRenamingLineTail(line);
    SelfRenamingCommand(line[2..]);
  }

  /** The new name read from printable typed text is printable. */
  lemma PrintableRenameArgument(typed: seq<byte>)
    requires forall j :: 0 <= j < |typed| ==> IsPrint(typed[j])
    ensures TypedRenameArgument(typed).Some? ==>
      var w := TypedRenameArgument(typed).value;
      forall b :: b in w ==> IsPrint(b)
  {
    var t := SkipBlanks(typed);
    assert forall k :: 0 <= k < |t| ==> IsPrint(t[k]) by {
      forall k | 0 <= k < |t|
        ensures IsPrint(t[k])
      {
        assert t[k] == typed[|typed| - |t| + k];
      }
    }
    if TypedRenameArgument(typed).Some? {
      var w := TypedRenameArgument(typed).value;
      forall b | b in w
        ensures IsPrint(b)
      {
        var i :| 0 <= i < |t| && t[i] == b;
      }
    }
  }

  /** Typed text whose first non-blank byte is '/' selects by the byte
      after it: 'q' quits, 'u' renames, and any other byte leaves a chat
      line. */
  lemma TypedCommandLetter(pre: seq<byte>, c: byte, more: seq<byte>)
    requires Blank(pre)
    ensures TypedCommand(pre + ([Slash, c] + more)) ==
      if c == QuitKey then Quit else if c == RenameKey then Rename else Chat
  {
    var t := [Slash, c] + more;
    assert t[0] == Slash && !IsSpace(Slash);
    SkipBlanksOf(pre, t);
  }

  /** "/u", any blanks (none included) and a word: the word is the new
      name, whatever blanks come before the '/' and whatever follows the
      word. */
  lemma TypedRenameWord(pre: seq<byte>, mid: seq<byte>, name: seq<byte>, more: seq<byte>)
    requires Blank(pre) && Blank(mid)
    requires 0 < |name| && NoSpace(name)
    requires |more| > 0 ==> IsSpace(more[0])
    ensures TypedRenameArgument(pre + ([Slash, RenameKey] + (mid + (name + more)))) == Some(name)
  {
    var u := mid + (name + more);
    var t := [Slash, RenameKey] + u;
    assert t[0] == Slash && !IsSpace(Slash);
    SkipBlanksOf(pre, t);
    assert t[2..] == u;
    assert forall j :: 0 <= j < |mid| ==> u[j] == mid[j];
    assert u[|mid|..] == name + more;
    assert LeadWord(u, name, more);
    ScanWordOf(u, name, more);
  }

  /** In a prompt line `username ++ "> " ++ typed` with a one-word
      username, the command byte is the first non-blank typed byte. */
  lemma PromptLineTail(username: seq<byte>, typed: seq<byte>)
    requires NoSpace(username)
    ensures var t := SkipBlanks(typed);
      CommandTail(username + [0x3E, 0x20] + typed) == if |t| == 0 then None else Some(t)
  {
    var line := username + [0x3E, 0x20] + typed;
    var first := username + [0x3E];
    var rest := [0x20 as byte] + typed;
    assert line == first + rest;
    assert NoSpace(first) by {
      assert forall k :: 0 <= k < |username| ==> first[k] == username[k];
    }
    assert line[0..] == first + rest;
    ScanWordOf(line, first, rest);
    assert rest[1..] == typed;
    assert SkipBlanks(rest) == SkipBlanks(typed);
  }

  /** A prompt line is classified by its typed text alone, provided the
      username is one word. */
  lemma ClassifyPromptLine(username: seq<byte>, typed: seq<byte>)
    requires NoSpace(username)
    ensures Classify(username + [0x3E, 0x20] + typed) == TypedCommand(typed)
  {
    PromptLineTail(username, typed);
  }

  /** The new name a prompt line carries is the word after the two
      command bytes of its typed text. */
  lemma RenameArgumentPromptLine(username: seq<byte>, typed: seq<byte>)
    requires NoSpace(username)
    ensures RenameArgument(username + [0x3E, 0x20] + typed) == TypedRenameArgument(typed)
  {
    PromptLineTail(username, typed);
  }
}

=== FILE: cstrings.dfy ===
/** Bytes, NUL-terminated strings and the C-library character classes the
    chat program relies on (C locale). A C string is modelled by its content:
    the bytes before its terminating NUL. */
module CStrings {

  type byte = bv8

  datatype Option<+T> = None | Some(value: T) {
    /** The wrapped value, or `default` when there is none. */
    function GetOr(default: T): T {
      match this
      case Some(v) => v
      case None => default
    }
  }

  const Nul: byte := 0

  /** The byte holding a value in 0..255 (counted up, which keeps the
      relation between the two cheap to reason about). */
  function ByteOf(n: int): (b: byte)
    requires 0 <= n < 256
    ensures b as int == n
    decreases n
  {
    if n == 0 then 0 else ByteOf(n - 1) + 1
  }

  predicate NoNul(s: seq<byte>) {
    forall i :: 0 <= i < |s| ==> s[i] != Nul
  }

  /** The string stored at the start of the buffer `buf`: the bytes before
      its first NUL, or all of `buf` when it holds none. */
  function CString(buf: seq<byte>): (r: seq<byte>)
    ensures r <= buf
    ensures NoNul(r)
    ensures |r| < |buf| ==> buf[|r|] == Nul
  {
    if |buf| == 0 || buf[0] == Nul then [] else [buf[0]] + CString(buf[1..])
  }

  /** A buffer holding a NUL-free string followed by its terminator reads
      back as exactly that string, whatever follows the terminator. */
  lemma CStringOfTerminated(s: seq<byte>, tail: seq<byte>)
    requires NoNul(s)
    ensures CString(s + [Nul] + tail) == s
  {
    var buf := s + [Nul] + tail;
    assert buf[|s|] == Nul;
    assert forall i :: 0 <= i < |s| ==> buf[i] == s[i];
    assert buf[..|s|] == s;
  }

  /** A buffer ending in NUL holds a string shorter than the buffer. */
  lemma CStringOfEndedBuffer(buf: seq<byte>)
    requires |buf| > 0 && buf[|buf| - 1] == Nul
    ensures |CString(buf)| < |buf|
  {
    assert buf[|buf| - 1] !in CString(buf);
  }

  /** The string in a buffer ends at the first NUL: if the first `k` bytes
      hold none and byte `k` is NUL (or the buffer ends there), the string
      is those `k` bytes. */
  lemma CStringEndsAt(buf: seq<byte>, k: nat)
    requires k <= |buf| && NoNul(buf[..k])
    requires k == |buf| || buf[k] == Nul
    ensures CString(buf) == buf[..k]
  {
    var r := CString(buf);
    assert forall j :: 0 <= j < k ==> buf[j] != Nul by {
      forall j | 0 <= j < k
        ensures buf[j] != Nul
      {
        assert buf[..k][j] == buf[j];
      }
    }
    assert forall j :: 0 <= j < |r| ==> r[j] == buf[j];
  }

  /** A NUL-free buffer is its own string. */
  lemma CStringOfNulFree(s: seq<byte>)
    requires NoNul(s)
    ensures CString(s) == s
  {
  }

  /** The parts of a NUL-free string are NUL-free. */
  lemma NoNulParts(a: seq<byte>, b: seq<byte>)
    ensures NoNul(a + b) ==> NoNul(a) && NoNul(b)
  {
    if NoNul(a + b) {
      assert forall i :: 0 <= i < |a| ==> a[i] == (a + b)[i];
      assert forall i :: 0 <= i < |b| ==> b[i] == (a + b)[|a| + i];
    }
  }

  /** Concatenation is associative (stated once, so that proofs about
      long concatenations need not rediscover it element by element). */
  lemma ConcatAssoc<T>(a: seq<T>, b: seq<T>, c: seq<T>)
    ensures (a + b) + c == a + (b + c)
  {
  }

  /** Dropping the first element of a concatenation whose left part is
      not empty. */
  lemma TailOfConcat<T>(a: seq<T>, b: seq<T>)
    requires |a| > 0
    ensures (a + b)[1..] == a[1..] + b
  {
  }

  /** A non-empty sequence is its head in front of its tail. */
  lemma HeadTail<T>(s: seq<T>)
    requires |s| > 0
    ensures [s[0]] + s[1..] == s
  {
  }

  /** Dropping `k >= 1` elements drops the first one and then `k - 1`. */
  lemma DropAfterHead<T>(s: seq<T>, k: nat)
    requires 1 <= k <= |s|
    ensures s[k..] == s[1..][k - 1..]
  {
  }

  /** Moving the first element of `a` onto the end of `line`, then the
      first `n - 1` of the others, appends the first `n` of `a`. */
  lemma AppendHead<T>(line: seq<T>, a: seq<T>, n: nat)
    requires 1 <= n <= |a|
    ensures (line + [a[0]]) + a[1..][..n - 1] == line + a[..n]
  {
  }

  /** isprint in the C locale. */
  predicate IsPrint(c: byte) {
    0x20 <= c <= 0x7E
  }

  /** isspace in the C locale: space, \t, \n, \v, \f and \r. */
  predicate IsSpace(c: byte) {
    c == 0x20 || 0x09 <= c <= 0x0D
  }

  predicate NoSpace(s: seq<byte>) {
    forall i :: 0 <= i < |s| ==> !IsSpace(s[i])
  }
}

=== FILE: editor.dfy ===
/** The keystroke loop of get_input (tchat/tchat.c): the outgoing line starts
    as `username ++ "> "` (the prompt, `uname_len` bytes) and is edited one
    key at a time. Backspace never reaches into the prompt, printable keys
    are appended, and the loop ends on end-of-line or when the line reaches
    79 bytes. Keys are the bytes `getchar` returns (Linux values). */
module Editor {
  import opened CStrings

  /** Capacity of the line, excluding its terminator (MSG_BUFF_SIZE). */
  const MsgBuffSize: nat := 79
  const Eol: byte := 0x0A
  const Backspace: byte := 0x7F

  /** A line as get_input keeps it: the prompt of `promptLen` bytes, then
      typed printable bytes, at most `MsgBuffSize` bytes and no NUL (so the
      buffer's NUL sits right after it). */
  predicate ValidLine(line: seq<byte>, promptLen: nat) {
    && promptLen <= |line| <= MsgBuffSize
    && NoNul(line)
    && forall i :: promptLen <= i < |line| ==> IsPrint(line[i])
  }

  /** The effect of one key other than end-of-line on the line: the
      prompt is never touched, a printable key is appended, backspace
      removes the last typed byte (none at the prompt), and any other key
      changes nothing. */
  function Keystroke(line: seq<byte>, promptLen: nat, key: byte): (r: seq<byte>)
    requires promptLen <= |line|
    ensures promptLen <= |r| && r[..promptLen] == line[..promptLen]
    ensures IsPrint(key) ==> r == line + [key]
    ensures key == Backspace && |line| == promptLen ==> r == line
    ensures key == Backspace && |line| > promptLen ==> r + [line[|line| - 1]] == line
    ensures key != Backspace && !IsPrint(key) ==> r == line
  {
    if key == Backspace then
      if |line| - 1 < promptLen then line else line[..|line| - 1]
    else if IsPrint(key) then line + [key]
    else line
  }

  /** A key keeps the line valid, and only a printable key can make it
      full. */
  lemma KeystrokeKeepsLine(line: seq<byte>, promptLen: nat, key: byte)
    requires ValidLine(line, promptLen) && |line| < MsgBuffSize
    ensures ValidLine(Keystroke(line, promptLen, key), promptLen)
    ensures |Keystroke(line, promptLen, key)| == MsgBuffSize ==> IsPrint(key)
  {
    var r := Keystroke(line, promptLen, key);
    assert forall i :: 0 <= i < |r| && i < |line| ==> r[i] == line[i];
  }

  datatype EditEnd = EndOfLine | BufferFull

  /** How editing ends: after `consumed` keys with the final line, or with
      the keys used up while the loop still waits for more. */
  datatype Edited =
    | Finished(line: seq<byte>, consumed: nat, how: EditEnd)
    | Pending(line: seq<byte>)

  /** The editing loop as a fold over the keys. */
  function Edit(line: seq<byte>, promptLen: nat, keys: seq<byte>): (r: Edited)
    requires ValidLine(line, promptLen) && |line| < MsgBuffSize
    decreases |keys|
    ensures ValidLine(r.line, promptLen)
    ensures r.line[..promptLen] == line[..promptLen]
    ensures r.Finished? ==>
              && 1 <= r.consumed <= |keys|
              && (forall j :: 0 <= j < r.consumed - 1 ==> keys[j] != Eol)
              && (r.how == EndOfLine <==> keys[r.consumed - 1] == Eol)
              && (r.how == BufferFull ==> |r.line| == MsgBuffSize && IsPrint(keys[r.consumed - 1]))
    ensures r.Pending? ==> |r.line| < MsgBuffSize && forall j :: 0 <= j < |keys| ==> keys[j] != Eol
  {
    if |keys| == 0 then Pending(line)
    else if keys[0] == Eol then Finished(line, 1, EndOfLine)
    else
      var next := Keystroke(line, promptLen, keys[0]);
      KeystrokeKeepsLine(line, promptLen, keys[0]);
      if keys[0] != Backspace && |next| == MsgBuffSize then Finished(next, 1, BufferFull)
      else
        assert forall j :: 1 <= j < |keys| ==> keys[j] == keys[1..][j - 1];
        match Edit(next, promptLen, keys[1..])
        case Finished(l, n, how) => Finished(l, n + 1, how)
        case Pending(l) => Pending(l)
  }

  /** End-of-line as the first key finishes the line as it stands. */
  lemma EditAtEol(line: seq<byte>, promptLen: nat, keys: seq<byte>)
    requires ValidLine(line, promptLen) && |line| < MsgBuffSize
    requires |keys| > 0 && keys[0] == Eol
    ensures Edit(line, promptLen, keys) == Finished(line, 1, EndOfLine)
  {
  }

  /** Every non-empty prefix of `keys` is its first key followed by a
      prefix of the rest. */
  lemma PrefixTails(keys: seq<byte>, n: nat)
    requires n < |keys|
    ensures forall j :: 1 <= j <= n ==> keys[..j][0] == keys[0] && keys[..j][1..] == keys[1..][..j - 1]
  {
  }

  /** Editing stops at the first key that ends or fills the line: on
      every shorter run of the keys it read, the loop is still waiting. */
  lemma {:induction false} EditStopsAtFirst(line: seq<byte>, promptLen: nat, keys: seq<byte>)
    requires ValidLine(line, promptLen) && |line| < MsgBuffSize
    ensures var r := Edit(line, promptLen, keys);
      r.Finished? ==> forall j :: 0 <= j < r.consumed ==> Edit(line, promptLen, keys[..j]).Pending?
    decreases |keys|
  {
    var r := Edit(line, promptLen, keys);
    if r.Finished? && r.consumed > 1 {
      var next := Keystroke(line, promptLen, keys[0]);
      assert keys[0] != Eol && !(keys[0] != Backspace && |next| == MsgBuffSize);
      var rest := Edit(next, promptLen, keys[1..]);
      assert rest.Finished? && rest.consumed == r.consumed - 1;
      EditStopsAtFirst(next, promptLen, keys[1..]);
      PrefixTails(keys, r.consumed - 1);
      forall j | 1 <= j < r.consumed
        ensures Edit(line, promptLen, keys[..j]).Pending?
      {
        assert Edit(next, promptLen, keys[1..][..j - 1]).Pending?;
      }
    }
  }

  /** A printable key followed by backspace leaves the line as it was. */
  lemma BackspaceUndoesKey(line: seq<byte>, promptLen: nat, key: byte)
    requires promptLen <= |line| && IsPrint(key)
    ensures Keystroke(Keystroke(line, promptLen, key), promptLen, Backspace) == line
  {
  }

  /** Backspace at the prompt changes nothing; elsewhere it removes the
      last typed byte. */
  lemma BackspaceStopsAtPrompt(line: seq<byte>, promptLen: nat)
    requires promptLen <= |line|
    ensures |line| == promptLen ==> Keystroke(line, promptLen, Backspace) == line
    ensures |line| > promptLen ==> Keystroke(line, promptLen, Backspace) + [line[|line| - 1]] == line
  {
  }

  /** Typing printable keys that fit, then end-of-line, yields exactly the
      prompt followed by those keys; the keys after end-of-line are left
      unread. */
  lemma {:induction false} TypingAppends(line: seq<byte>, promptLen: nat, typed: seq<byte>, more: seq<byte>)
    requires ValidLine(line, promptLen)
    requires |line| + |typed| < MsgBuffSize
    requires forall j :: 0 <= j < |typed| ==> IsPrint(typed[j])
    ensures Edit(line, promptLen, typed + [Eol] + more) == Finished(line + typed, |typed| + 1, EndOfLine)
    decreases |typed|
  {
    if |typed| == 0 {
      assert (typed + [Eol] + more)[0] == Eol;
    } else {
      var next := line + [typed[0]];
      assert IsPrint(typed[0]) && (typed + [Eol] + more)[0] == typed[0];
      TailOfConcat(typed + [Eol], more);
      TailOfConcat(typed, [Eol]);
      TypingAppends(next, promptLen, typed[1..], more);
      AppendHead(line, typed, |typed|);
      assert typed[1..][..|typed| - 1] == typed[1..] && typed[..|typed|] == typed;
    }
  }

  /** Printable keys that do not fit end the line as soon as it is full:
      the keys after the 79th byte are left unread. */
  lemma {:induction false} TypingFillsBuffer(line: seq<byte>, promptLen: nat, typed: seq<byte>)
    requires ValidLine(line, promptLen) && |line| < MsgBuffSize
    requires |line| + |typed| >= MsgBuffSize
    requires forall j :: 0 <= j < |typed| ==> IsPrint(typed[j])
    ensures var n := MsgBuffSize - |line|;
      Edit(line, promptLen, typed) == Finished(line + typed[..n], n, BufferFull)
    decreases |typed|
  {
    var k := typed[0];
    assert IsPrint(k);
    assert k != Eol && k != Backspace;
    var next := line + [k];
    assert Keystroke(line, promptLen, k) == next;
    assert ValidLine(next, promptLen) by {
      assert forall i :: 0 <= i < |line| ==> next[i] == line[i];
    }
    if |next| == MsgBuffSize {
      assert typed[..1] == [k];
      assert Edit(line, promptLen, typed) == Finished(next, 1, BufferFull);
    } else {
      var n := MsgBuffSize - |line|;
      TypingFillsBuffer(next, promptLen, typed[1..]);
      assert Edit(next, promptLen, typed[1..]) == Finished(next + typed[1..][..n - 1], n - 1, BufferFull);
      AppendHead(line, typed, n);
    }
  }
}

=== FILE: network.dfy ===
/** The framing layer of tchat/network.c: frames are NUL-terminated byte runs
    on one TCP stream. `socket_send` hands a whole frame to the OS and fails
    hard on a short write; `socket_recv` reads one byte per `recv` call into
    a 256-byte buffer until it sees the delimiter.

    The socket is replaced by what it yields: a `Stream` is the finite run
    of bytes successive one-byte `recv` calls return, after which every
    call returns 0 (peer closed) or a negative value (error). */
module Network {
  import opened CStrings

  const BuffSize: nat := 256
  const Delim: byte := Nul

  datatype StreamEnd = Closed | Broken
  datatype Stream = Stream(bytes: seq<byte>, end: StreamEnd)

  /** The stream left after `n` bytes have been taken from it. */
  function Drop(s: Stream, n: nat): (r: Stream)
    requires n <= |s.bytes|
    ensures r.bytes == s.bytes[n..] && r.end == s.end
  {
    Stream(s.bytes[n..], s.end)
  }

  /** The outcome of one `socket_recv` call: the frame handed to the
      handler (if it was called; its `len` argument is the frame's length),
      the number of bytes taken from the stream and the value returned.
      `Died` is the process exit on a receive error. */
  datatype RecvResult =
    | Returned(frame: Option<seq<byte>>, consumed: nat, value: int)
    | Died

  /** No delimiter among the first `n` bytes. */
  predicate NoDelimBefore(bytes: seq<byte>, n: nat)
    requires n <= |bytes|
  {
    NoNul(bytes[..n])
  }

  /** The read loop of `socket_recv` after `received` bytes have been
      stored without seeing the delimiter. Its contract is the loop's
      meaning, one clause per way the loop can end. */
  function ReadFrom(s: Stream, received: nat): (r: RecvResult)
    requires received <= BuffSize && received <= |s.bytes|
    requires NoDelimBefore(s.bytes, received)
    decreases BuffSize - received
    // the delimiter was read: the handler got everything up to and including it
    ensures r.Returned? && r.frame.Some? ==>
              && received < r.consumed <= BuffSize && r.consumed <= |s.bytes|
              && r.frame.value == s.bytes[..r.consumed]
              && s.bytes[r.consumed - 1] == Delim
              && NoDelimBefore(s.bytes, r.consumed - 1)
              && r.value == 1
    // the buffer filled up: the partial frame is dropped, 1 is returned
    ensures r.Returned? && r.frame.None? && r.value != 0 ==>
              && r.consumed == BuffSize <= |s.bytes|
              && NoDelimBefore(s.bytes, BuffSize)
              && r.value == 1
    // the peer closed first: nothing delivered, 0 returned
    ensures r.Returned? && r.value == 0 ==>
              && r.frame.None?
              && s.end == Closed && r.consumed == |s.bytes| < BuffSize
              && NoNul(s.bytes)
    // a receive error: fatal
    ensures r.Died? ==> s.end.Broken? && |s.bytes| < BuffSize && NoNul(s.bytes)
  {
    if received == BuffSize then
      Returned(None, BuffSize, 1)
    else if received == |s.bytes| then
      assert s.bytes[..received] == s.bytes;
      if s.end == Closed then Returned(None, received, 0) else Died
    else if s.bytes[received] == Delim then
      Returned(Some(s.bytes[..received + 1]), received + 1, 1)
    else
      assert s.bytes[..received + 1] == s.bytes[..received] + [s.bytes[received]];
      ReadFrom(s, received + 1)
  }

  /** `socket_recv`: one call, starting with an empty buffer. It returns 0
      exactly when the peer closes before a delimiter or a full buffer,
      dies exactly when the stream breaks there, and otherwise returns 1. */
  function SocketRecv(s: Stream): (r: RecvResult)
    ensures r.Returned? ==> r.consumed <= |s.bytes| && (r.value == 0 || r.value == 1)
    ensures r.Returned? && r.frame.Some? ==>
              && 1 <= r.consumed && r.frame.value == s.bytes[..r.consumed]
              && s.bytes[r.consumed - 1] == Delim && NoDelimBefore(s.bytes, r.consumed - 1)
    ensures r.Returned? && r.value == 0 <==> s.end == Closed && |s.bytes| < BuffSize && NoNul(s.bytes)
    ensures r.Died? <==> s.end.Broken? && |s.bytes| < BuffSize && NoNul(s.bytes)
  {
    ReadFrom(s, 0)
  }

  /** When the first delimiter of the stream is at index `i < BuffSize`, the
      handler is called once with the bytes up to and including it, and no
      byte after it is consumed. */
  lemma RecvFirstDelim(s: Stream, i: nat)
    requires i < |s.bytes| && i < BuffSize
    requires s.bytes[i] == Delim && NoDelimBefore(s.bytes, i)
    ensures SocketRecv(s) == Returned(Some(s.bytes[..i + 1]), i + 1, 1)
  {
    var r := SocketRecv(s);
    assert !NoNul(s.bytes) by {
      assert s.bytes[i] == Nul;
    }
    if |s.bytes| >= BuffSize {
      assert !NoDelimBefore(s.bytes, BuffSize) by {
        assert s.bytes[..BuffSize][i] == Delim;
      }
    }
    assert r.Returned? && r.frame.Some?;
    var n := r.consumed;
    assert forall j :: 0 <= j < i ==> s.bytes[..i][j] == s.bytes[j];
    assert forall j :: 0 <= j < n - 1 ==> s.bytes[..n - 1][j] == s.bytes[j];
    assert n - 1 == i;
  }

  /** The handler is called exactly when a delimiter is among the first
      `BuffSize` bytes of the stream. */
  lemma RecvDeliversIffDelim(s: Stream)
    ensures var r := SocketRecv(s);
      r.Returned? && r.frame.Some? <==>
        exists i :: 0 <= i < |s.bytes| && i < BuffSize && s.bytes[i] == Delim
  {
    var r := SocketRecv(s);
    if r.Returned? && r.frame.Some? {
      assert s.bytes[r.consumed - 1] == Delim;
    }
    if exists i :: 0 <= i < |s.bytes| && i < BuffSize && s.bytes[i] == Delim {
      var i := FirstDelim(s.bytes, BuffSize);
      RecvFirstDelim(s, i);
    }
  }

  /** The index of the first delimiter among the first `limit` bytes. */
  function FirstDelim(bytes: seq<byte>, limit: nat): (i: nat)
    requires exists i :: 0 <= i < |bytes| && i < limit && bytes[i] == Delim
    ensures i < |bytes| && i < limit && bytes[i] == Delim && NoDelimBefore(bytes, i)
  {
    if bytes[0] == Delim then 0
    else
      assert exists i :: 0 <= i < |bytes[1..]| && i < limit - 1 && bytes[1..][i] == Delim by {
        var i :| 0 <= i < |bytes| && i < limit && bytes[i] == Delim;
        assert bytes[1..][i - 1] == Delim;
      }
      var j := FirstDelim(bytes[1..], limit - 1);
      assert bytes[..j + 1] == [bytes[0]] + bytes[1..][..j];
      j + 1
  }

  /** A delivered frame's payload (the bytes before its delimiter) is at
      most 255 bytes long and holds no NUL. */
  lemma PayloadBounded(s: Stream)
    ensures var r := SocketRecv(s);
      r.Returned? && r.frame.Some? ==>
        var f := r.frame.value;
        1 <= |f| <= BuffSize && f[|f| - 1] == Delim && NoNul(f[..|f| - 1]) && |f[..|f| - 1]| <= 255
  {
    var r := SocketRecv(s);
    if r.Returned? && r.frame.Some? {
      var n := r.consumed;
      assert r.frame.value[..n - 1] == s.bytes[..n - 1];
    }
  }

  /** The outcome of `socket_send`: what went onto the wire, or the exit
      taken when the OS reports fewer bytes sent than asked. */
  datatype SendResult = Transmitted(wire: seq<byte>) | SendDied

  /** `socket_send(s, message, len)`; `reported` is what `send` returned. */
  function SocketSend(message: seq<byte>, len: nat, reported: int): (r: SendResult)
    requires len <= |message|
    ensures r.Transmitted? <==> reported == len
    ensures r.Transmitted? ==> r.wire == message[..len]
  {
    if reported != len then SendDied else Transmitted(message[..len])
  }

  /** Sending a C string held in a buffer: `strlen + 1` bytes, so the
      string's content followed by exactly one delimiter. */
  function SendString(s: seq<byte>, reported: int): (r: SendResult)
    requires NoNul(s)
    ensures r.Transmitted? <==> reported == |s| + 1
    ensures r.Transmitted? ==> r.wire == s + [Delim] && r.wire[|s|] == Delim && NoNul(r.wire[..|s|])
  {
    assert (s + [Delim])[..|s| + 1] == s + [Delim];
    SocketSend(s + [Delim], |s| + 1, reported)
  }

  /** A frame sent as a C string arrives as one frame, whatever follows it
      on the stream: exactly its bytes are consumed and handed over. */
  lemma SentStringIsOneFrame(s: seq<byte>, rest: seq<byte>, end: StreamEnd)
    requires NoNul(s) && |s| < BuffSize
    ensures SocketRecv(Stream(s + [Delim] + rest, end)) == Returned(Some(s + [Delim]), |s| + 1, 1)
  {
    var st := Stream(s + [Delim] + rest, end);
    assert st.bytes[..|s|] == s;
    assert st.bytes[..|s| + 1] == s + [Delim];
    RecvFirstDelim(st, |s|);
  }
}

=== FILE: session.dfy ===
/** The chat session of tchat/tchat.c on top of the framing, cipher, editor
    and command layers: the hostname exchange, what one turn of the main
    loop sends, what the receiving side does with each frame, and the
    receive loop. Every string crosses the wire as one frame: its
    encryption followed by the delimiter. */
module Session {
  import opened CStrings
  import opened Cipher
  import opened Network
  import opened Editor
  import opened Commands

  /** The first byte of a goodbye message. */
  const ByeBye: byte := 0xBB
  /** Capacity of the hostname buffers (NAME_SIZE). */
  const NameSize: nat := 256
  /** The prompt "> " written after the username. */
  const Prompt: seq<byte> := [0x3E, 0x20]
  /** " has disconnected" */
  const HasDisconnected: seq<byte> :=
    [0x20, 0x68, 0x61, 0x73, 0x20, 0x64, 0x69, 0x73, 0x63, 0x6F, 0x6E, 0x6E, 0x65, 0x63, 0x74, 0x65, 0x64]

  /** The bytes `socket_send(s, buf, strlen(buf) + 1)` puts on the wire
      after `encrypt(buf)`, for a buffer holding the string `p`. */
  function Frame(key: byte, p: seq<byte>): (w: seq<byte>)
    requires key != 0 && NoNul(p)
    ensures |w| == |p| + 1 && w[|p|] == Delim && NoNul(w[..|p|])
  {
    XorCryptNulFree(key, p);
    assert (XorCrypt(key, p) + [Delim])[..|p|] == XorCrypt(key, p);
    XorCrypt(key, p) + [Delim]
  }

  /** Decrypting a frame in the receive buffer gives the string back,
      followed by its terminator. */
  lemma FrameDecrypts(key: byte, p: seq<byte>)
    requires key != 0 && NoNul(p)
    ensures XorCrypt(key, Frame(key, p)) == p + [Nul]
    ensures CString(XorCrypt(key, Frame(key, p))) == p
  {
    var enc := XorCrypt(key, p);
    XorCryptNulFree(key, p);
    XorCryptTerminated(key, enc);
    XorCryptInvolution(key, p);
    CStringOfTerminated(p, []);
    assert p + [Nul] + [] == p + [Nul];
  }

  /** Bytes that make exactly one frame: a NUL-free run and the delimiter. */
  predicate OneFrame(w: seq<byte>) {
    0 < |w| && w[|w| - 1] == Delim && NoNul(w[..|w| - 1])
  }

  lemma FrameIsOneFrame(key: byte, p: seq<byte>)
    requires key != 0 && NoNul(p)
    ensures OneFrame(Frame(key, p))
  {
  }

  /** A string of fewer than 256 bytes sent as a frame arrives as exactly
      that frame, consuming nothing after it, and decrypting the received
      buffer gives the string back. */
  lemma WireRoundTrip(key: byte, p: seq<byte>, rest: seq<byte>, end: StreamEnd)
    requires key != 0 && NoNul(p) && |p| < BuffSize
    ensures SocketRecv(Stream(Frame(key, p) + rest, end)) == Returned(Some(Frame(key, p)), |p| + 1, 1)
    ensures XorCrypt(key, Frame(key, p)) == p + [Nul]
    ensures CString(XorCrypt(key, Frame(key, p))) == p
  {
    XorCryptNulFree(key, p);
    SentStringIsOneFrame(XorCrypt(key, p), rest, end);
    FrameDecrypts(key, p);
  }

  // ---------------------------------------------------------------------
  // The hostname exchange

  /** receive_remote_name: the frame's string, copied and decrypted. */
  function ReceiveRemoteName(key: byte, frame: seq<byte>): (name: seq<byte>)
    requires key != 0
    ensures NoNul(name) && |name| == |CString(frame)|
    ensures XorCrypt(key, name) == CString(frame)
  {
    XorCryptNulFree(key, CString(frame));
    XorCryptInvolution(key, CString(frame));
    XorCrypt(key, CString(frame))
  }

  datatype Exchanged =
    | Connected(wire: seq<byte>, hostname: seq<byte>, remoteName: seq<byte>, rest: Stream)
    | HandshakeDied

  /** Lines 157-161 of main: the encrypted hostname is sent (not the
      username), the hostname buffer is decrypted again, then one frame is
      read and, if the handler is called, taken as the peer's name. The
      value `socket_recv` returns is ignored; without a frame the peer's
      name stays empty. `reported` is what `send` returns. */
  function Handshake(key: byte, hostname: seq<byte>, reported: int, incoming: Stream): (r: Exchanged)
    requires key != 0 && NoNul(hostname) && |hostname| < NameSize
    ensures r.Connected? <==> reported == |hostname| + 1 && SocketRecv(incoming).Returned?
    ensures r.Connected? ==> r.wire == Frame(key, hostname) && r.hostname == hostname
    ensures r.Connected? ==> NoNul(r.remoteName) && |r.remoteName| < NameSize
    ensures r.Connected? ==> |r.rest.bytes| <= |incoming.bytes| && r.rest.end == incoming.end
    // no frame (the peer closed, or the buffer filled): the name stays empty
    ensures r.Connected? && SocketRecv(incoming).frame.None? ==> r.remoteName == []
    ensures r.Connected? && SocketRecv(incoming).frame.Some? ==>
              XorCrypt(key, r.remoteName) == CString(SocketRecv(incoming).frame.value)
  {
    XorCryptNulFree(key, hostname);
    var sent := XorCrypt(key, hostname);
    match SendString(sent, reported)
    case SendDied => HandshakeDied
    case Transmitted(wire) =>
      match SocketRecv(incoming)
      case Died => HandshakeDied
      case Returned(frame, n, _) =>
        XorCryptInvolution(key, hostname);
        var remote := if frame.Some? then
            CStringOfEndedBuffer(frame.value);
            ReceiveRemoteName(key, frame.value)
          else [];
        Connected(wire, XorCrypt(key, sent), remote, Drop(incoming, n))
  }

  /** Each side learns the other's hostname: reading the frame the peer's
      handshake sent gives the peer's hostname, and the rest of the stream
      is left for the receive loop. */
  lemma HandshakeLearnsPeerHostname(key: byte, mine: seq<byte>, peer: seq<byte>, rest: seq<byte>, end: StreamEnd)
    requires key != 0
    requires NoNul(mine) && |mine| < NameSize
    requires NoNul(peer) && |peer| < NameSize
    ensures Handshake(key, mine, |mine| + 1, Stream(Frame(key, peer) + rest, end))
         == Connected(Frame(key, mine), mine, peer, Stream(rest, end))
  {
    var incoming := Stream(Frame(key, peer) + rest, end);
    WireRoundTrip(key, peer, rest, end);
    var frame := Frame(key, peer);
    assert CString(frame) == XorCrypt(key, peer) by {
      XorCryptNulFree(key, peer);
      CStringOfTerminated(XorCrypt(key, peer), []);
      assert XorCrypt(key, peer) + [Nul] + [] == frame;
    }
    XorCryptInvolution(key, peer);
    assert incoming.bytes[|peer| + 1..] == rest;
  }

  // ---------------------------------------------------------------------
  // The receiving side

  /** What handle_incoming does with one frame: the text it prints (if
      any), the new value of the partner flag, and whether the process
      exits (with EXIT_SUCCESS) because the partner is gone. */
  datatype Incoming = Incoming(shown: Option<seq<byte>>, partnerOn: bool, exits: bool)

  /** handle_incoming: a frame starting with the delimiter is ignored;
      otherwise it is decrypted, a leading goodbye byte is stripped and
      clears the partner flag, the text is printed, and the process exits
      when the flag is clear. The printed text, encrypted again (with the
      goodbye byte put back), is the string the frame carried. */
  function HandleIncoming(key: byte, partnerOn: bool, frame: seq<byte>): (r: Incoming)
    requires key != 0 && |frame| > 0 && frame[|frame| - 1] == Delim
    ensures r.shown.None? <==> frame[0] == Delim
    ensures r.shown.None? ==> r.partnerOn == partnerOn && !r.exits
    ensures r.shown.Some? ==> (r.exits <==> !r.partnerOn)
    ensures r.shown.Some? ==> NoNul(r.shown.value) && |r.shown.value| < |frame|
    ensures r.partnerOn ==> partnerOn
    // the goodbye byte, and only it, clears the flag
    ensures frame[0] != Delim && XorCrypt(key, frame)[0] == ByeBye ==> !r.partnerOn && r.exits
    ensures frame[0] != Delim && XorCrypt(key, frame)[0] != ByeBye ==> r.partnerOn == partnerOn
    // what is printed is the frame's string, decrypted, without the goodbye byte
    ensures r.shown.Some? && XorCrypt(key, frame)[0] != ByeBye ==> XorCrypt(key, r.shown.value) == CString(frame)
    ensures r.shown.Some? && XorCrypt(key, frame)[0] == ByeBye ==> XorCrypt(key, [ByeBye] + r.shown.value) == CString(frame)
  {
    if frame[0] == Delim then Incoming(None, partnerOn, false)
    else
      var text := CString(XorCrypt(key, frame));
      DecryptedText(key, frame);
      if |text| > 0 && text[0] == ByeBye then
        assert NoNul(text[1..]) by {
          assert forall i :: 0 <= i < |text| - 1 ==> text[1..][i] == text[i + 1];
        }
        assert [ByeBye] + text[1..] == text;
        Incoming(Some(text[1..]), false, true)
      else Incoming(Some(text), partnerOn, !partnerOn)
  }

  /** The text of a frame that does not start with the delimiter: it is
      not empty, it starts with the frame's first byte decrypted, and
      encrypting it gives back the frame's string. */
  lemma DecryptedText(key: byte, frame: seq<byte>)
    requires key != 0 && |frame| > 0 && frame[0] != Delim
    ensures var text := CString(XorCrypt(key, frame));
      && |text| > 0 && text[0] == XorCrypt(key, frame)[0]
      && XorCrypt(key, text) == CString(frame)
  {
    var c := CString(frame);
    XorCryptString(key, frame);
    XorCryptInvolution(key, c);
    assert |c| > 0;
    CryptByteFacts(key, frame[0]);
  }

  /** A string that is not a goodbye: it fits a receive buffer and does
      not start with the goodbye byte. */
  predicate Plain(p: seq<byte>) {
    |p| < BuffSize && (|p| == 0 || p[0] != ByeBye)
  }

  /** The frame of an empty string (what a rename sends) is the lone
      delimiter, and the receiver ignores it. */
  lemma EmptyFrameIgnored(key: byte, partnerOn: bool)
    requires key != 0
    ensures Frame(key, []) == [Delim]
    ensures HandleIncoming(key, partnerOn, Frame(key, [])) == Incoming(None, partnerOn, false)
  {
    assert XorCrypt(key, []) == [];
  }

  /** A non-empty plain string arrives and is printed as it was sent; the
      partner flag is kept. */
  lemma ChatLineShown(key: byte, partnerOn: bool, p: seq<byte>)
    requires key != 0 && NoNul(p) && Plain(p) && |p| > 0
    ensures HandleIncoming(key, partnerOn, Frame(key, p)) == Incoming(Some(p), partnerOn, !partnerOn)
  {
    WireRoundTrip(key, p, [], Closed);
    CryptByteFacts(key, p[0]);
    assert Frame(key, p)[0] == CryptByte(key, p[0]);
  }

  /** A string starting with the goodbye byte, whatever follows it, is
      printed without that byte, and it clears the partner flag and ends
      the process. */
  lemma SentinelStripped(key: byte, partnerOn: bool, p: seq<byte>)
    requires key != 0 && NoNul(p) && 0 < |p| < BuffSize && p[0] == ByeBye
    ensures HandleIncoming(key, partnerOn, Frame(key, p)) == Incoming(Some(p[1..]), false, true)
  {
    WireRoundTrip(key, p, [], Closed);
    CryptByteFacts(key, p[0]);
    assert Frame(key, p)[0] == CryptByte(key, p[0]);
  }

  /** The goodbye text say_goodbye sends: the goodbye byte, the username
      and " has disconnected". */
  function GoodbyePayload(username: seq<byte>): (p: seq<byte>)
    requires NoNul(username)
    ensures NoNul(p) && |p| == |username| + 18 && p[0] == ByeBye
  {
    var p := [ByeBye] + username + HasDisconnected;
    assert forall i :: 0 <= i < |username| ==> p[1 + i] == username[i];
    assert forall i :: 0 <= i < |HasDisconnected| ==> p[1 + |username| + i] == HasDisconnected[i];
    p
  }

  /** Without its first byte the goodbye is the text the peer prints. */
  lemma GoodbyeText(username: seq<byte>)
    requires NoNul(username)
    ensures GoodbyePayload(username)[1..] == username + HasDisconnected
  {
    ConcatAssoc([ByeBye], username, HasDisconnected);
  }

  /** say_goodbye: the goodbye text is encrypted and sent as one frame.
      The text must fit the 80-byte line buffer with its terminator. */
  function SayGoodbye(key: byte, username: seq<byte>, reported: int): (r: SendResult)
    requires key != 0 && NoNul(username) && |username| + 18 <= MsgBuffSize
    ensures r.Transmitted? <==> reported == |username| + 19
    ensures r.Transmitted? ==> r.wire == Frame(key, GoodbyePayload(username)) && |r.wire| <= MsgBuffSize + 1
    ensures r.Transmitted? ==> CString(XorCrypt(key, r.wire)) == [ByeBye] + username + HasDisconnected
  {
    var p := GoodbyePayload(username);
    XorCryptNulFree(key, p);
    FrameDecrypts(key, p);
    SendString(XorCrypt(key, p), reported)
  }

  /** The goodbye arrives as one frame; the receiver prints the username
      and " has disconnected", clears the partner flag and exits. */
  lemma GoodbyeRoundTrip(key: byte, username: seq<byte>, rest: seq<byte>, end: StreamEnd)
    requires key != 0 && NoNul(username) && |username| + 18 <= MsgBuffSize
    ensures var w := SayGoodbye(key, username, |username| + 19).wire;
      && SocketRecv(Stream(w + rest, end)) == Returned(Some(w), |w|, 1)
      && HandleIncoming(key, true, w) == Incoming(Some(username + HasDisconnected), false, true)
  {
    var p := GoodbyePayload(username);
    WireRoundTrip(key, p, rest, end);
    WireRoundTrip(key, p, [], Closed);
    var w := Frame(key, p);
    CryptByteFacts(key, ByeBye);
    assert w[0] == CryptByte(key, ByeBye);
    GoodbyeText(username);
  }

  datatype ThreadEnd = PartnerQuit | ConnectionClosed | ReceiveFailed

  /** The texts the receive loop printed, in order, and how it ended. */
  datatype Received = Received(shown: seq<seq<byte>>, end: ThreadEnd)

  /** The receive loop `while (socket_recv(s, handle_incoming));` over the
      stream left after the handshake. While it runs the partner flag is
      set (only a goodbye clears it, and that ends the process). It stops
      when the peer closes the connection (the socket is then closed but
      the process goes on), on a receive error (fatal), or when a goodbye
      makes handle_incoming exit. */
  function ReceiveThread(key: byte, s: Stream): (r: Received)
    requires key != 0
    decreases |s.bytes|
    ensures r.end == ReceiveFailed ==> s.end == Broken
    ensures r.end == ConnectionClosed ==> s.end == Closed
  {
    match SocketRecv(s)
    case Died => Received([], ReceiveFailed)
    case Returned(frame, n, value) =>
      if value == 0 then Received([], ConnectionClosed)
      else
        var got := if frame.Some? then HandleIncoming(key, true, frame.value) else Incoming(None, true, false);
        var now := if got.shown.Some? then [got.shown.value] else [];
        if got.exits then Received(now, PartnerQuit)
        else
          var later := ReceiveThread(key, Drop(s, n));
          Received(now + later.shown, later.end)
  }

  /** A run of 256 bytes without a delimiter fills the receive buffer: the
      partial frame is dropped unseen, `socket_recv` still returns 1, and
      the loop goes on with a fresh frame after the run. */
  lemma OverflowSkipped(key: byte, junk: seq<byte>, rest: seq<byte>, end: StreamEnd)
    requires key != 0 && |junk| == BuffSize && NoNul(junk)
    ensures ReceiveThread(key, Stream(junk + rest, end)) == ReceiveThread(key, Stream(rest, end))
  {
    var s := Stream(junk + rest, end);
    assert s.bytes[..BuffSize] == junk;
    assert SocketRecv(s) == Returned(None, BuffSize, 1);
    assert Drop(s, BuffSize) == Stream(rest, end);
  }

  /** The bytes a sequence of strings makes on the wire, one frame each. */
  function Wire(key: byte, lines: seq<seq<byte>>): (w: seq<byte>)
    requires key != 0 && forall i :: 0 <= i < |lines| ==> NoNul(lines[i])
  {
    if |lines| == 0 then [] else Frame(key, lines[0]) + Wire(key, lines[1..])
  }

  /** The non-empty strings of `lines`, in order. */
  function Visible(lines: seq<seq<byte>>): (r: seq<seq<byte>>)
    ensures |r| <= |lines|
  {
    if |lines| == 0 then []
    else if |lines[0]| == 0 then Visible(lines[1..])
    else [lines[0]] + Visible(lines[1..])
  }

  /** One turn of the receive loop on a frame the handler takes without
      exiting: what it prints comes first, then the loop goes on after the
      frame. */
  lemma ReceiveThreadStep(key: byte, s: Stream, f: seq<byte>, shown: Option<seq<byte>>)
    requires key != 0 && |f| > 0 && |f| <= |s.bytes|
    requires SocketRecv(s) == Returned(Some(f), |f|, 1)
    requires HandleIncoming(key, true, f) == Incoming(shown, true, false)
    ensures var later := ReceiveThread(key, Drop(s, |f|));
      ReceiveThread(key, s) == Received((if shown.Some? then [shown.value] else []) + later.shown, later.end)
  {
  }

  /** The receive loop on a plain frame: a non-empty string is printed and
      the empty one is not, and the loop goes on after the frame. */
  lemma ReceivePlainFrame(key: byte, p: seq<byte>, after: seq<byte>, end: StreamEnd)
    requires key != 0 && NoNul(p) && Plain(p)
    ensures var later := ReceiveThread(key, Stream(after, end));
      ReceiveThread(key, Stream(Frame(key, p) + after, end))
        == Received((if |p| == 0 then [] else [p]) + later.shown, later.end)
  {
    var s := Stream(Frame(key, p) + after, end);
    var f := Frame(key, p);
    assert SocketRecv(s) == Returned(Some(f), |f|, 1) && Drop(s, |f|) == Stream(after, end) by {
      WireRoundTrip(key, p, after, end);
    }
    if |p| == 0 {
      EmptyFrameIgnored(key, true);
      ReceiveThreadStep(key, s, f, None);
    } else {
      ChatLineShown(key, true, p);
      ReceiveThreadStep(key, s, f, Some(p));
    }
  }

  /** Unfolding `Visible` once, with more strings after it. */
  lemma VisibleCons(lines: seq<seq<byte>>, more: seq<seq<byte>>)
    requires |lines| > 0
    ensures (if |lines[0]| == 0 then [] else [lines[0]]) + (Visible(lines[1..]) + more) == Visible(lines) + more
  {
    var v := Visible(lines[1..]);
    if |lines[0]| == 0 {
      assert [] + (v + more) == v + more;
    } else {
      assert [lines[0]] + (v + more) == ([lines[0]] + v) + more;
    }
  }

  /** Receiving a run of plain frames prints every non-empty string among
      them, in order, and then carries on with the rest of the stream. */
  lemma {:induction false} ReceiveWire(key: byte, lines: seq<seq<byte>>, rest: seq<byte>, end: StreamEnd)
    requires key != 0 && forall i :: 0 <= i < |lines| ==> NoNul(lines[i]) && Plain(lines[i])
    ensures var tail := ReceiveThread(key, Stream(rest, end));
      ReceiveThread(key, Stream(Wire(key, lines) + rest, end)) == Received(Visible(lines) + tail.shown, tail.end)
  {
    if |lines| == 0 {
      assert Wire(key, lines) + rest == rest;
    } else {
      ReceiveWire(key, lines[1..], rest, end);
      ReceiveWireStep(key, lines, rest, end);
    }
  }

  /** The inductive step of ReceiveWire: one more plain frame in front. */
  lemma ReceiveWireStep(key: byte, lines: seq<seq<byte>>, rest: seq<byte>, end: StreamEnd)
    requires key != 0 && |lines| > 0 && NoNul(lines[0]) && Plain(lines[0])
    requires forall i :: 0 <= i < |lines| ==> NoNul(lines[i])
    requires var tail := ReceiveThread(key, Stream(rest, end));
      ReceiveThread(key, Stream(Wire(key, lines[1..]) + rest, end)) == Received(Visible(lines[1..]) + tail.shown, tail.end)
    ensures var tail := ReceiveThread(key, Stream(rest, end));
      ReceiveThread(key, Stream(Wire(key, lines) + rest, end)) == Received(Visible(lines) + tail.shown, tail.end)
  {
    var p := lines[0];
    var after := Wire(key, lines[1..]) + rest;
    var tail := ReceiveThread(key, Stream(rest, end));
    var later := ReceiveThread(key, Stream(after, end));
    var now: seq<seq<byte>> := if |p| == 0 then [] else [p];
    assert Wire(key, lines) == Frame(key, p) + Wire(key, lines[1..]);
    ConcatAssoc(Frame(key, p), Wire(key, lines[1..]), rest);
    ReceivePlainFrame(key, p, after, end);
    VisibleCons(lines, tail.shown);
  }

  // ---------------------------------------------------------------------
  // The sending side

  /** What the main thread keeps between lines: the username (uname_len
      is always its length plus the prompt's). */
  datatype Sender = Sender(username: seq<byte>)

  /** The username is a C string and `username ++ "> "` leaves room for at
      least one typed byte in the 79-byte line. */
  predicate SenderInv(st: Sender) {
    NoNul(st.username) && |st.username| + |Prompt| < MsgBuffSize
  }

  /** The username does not start with the goodbye byte, so no line it
      starts is taken for a goodbye. */
  predicate NoLeadingGoodbye(u: seq<byte>) {
    |u| == 0 || u[0] != ByeBye
  }

  /** A username whose lines, and those of every name a rename gives it,
      are never taken for a goodbye: it holds no 0xBB at all, or it is one
      word that does not start with 0xBB (a rename then reads its new name
      from the typed text, which is printable). A username with a space
      and a later 0xBB can rename itself to a name led by 0xBB. */
  predicate SafeName(u: seq<byte>) {
    ByeBye !in u || (NoSpace(u) && NoLeadingGoodbye(u))
  }

  /** `uname_len` */
  function UnameLen(st: Sender): nat {
    |st.username| + |Prompt|
  }

  /** change_username on the finished line: the first word after the
      command byte and the byte after it becomes the username when there
      is one (the length guard always holds for a line of at most 79
      bytes); `uname_len` follows from it. */
  function ChangeUsername(st: Sender, line: seq<byte>): (r: Sender)
    requires SenderInv(st) && NoNul(line) && |line| <= MsgBuffSize
    ensures SenderInv(r)
    ensures r == st || (0 < |r.username| && NoSpace(r.username) && forall b :: b in r.username ==> b in line)
    ensures RenameArgument(line).None? ==> r == st
    ensures RenameArgument(line).Some? ==>
      exists rest :: LeadWord(CommandTail(line).value[2..], r.username, rest)
  {
    if |line| < NameSize then Sender(RenameArgument(line).GetOr(st.username)) else st
  }

  /** What one turn of the main loop has to send once get_input returns:
      a line (the typed chat line, or the empty string after a rename,
      with the username to use next) or the goodbye; or nothing, when the
      line has nothing after its first word (what happens then depends on
      the C library's sscanf), when the goodbye would not fit the line
      buffer, or when the keys run out before the line is finished. */
  datatype Outgoing =
    | Line(next: Sender, payload: seq<byte>, consumed: nat)
    | Goodbye(consumed: nat)
    | LibraryDependent(line: seq<byte>)
    | Overrun(line: seq<byte>)
    | AwaitingKeys(line: seq<byte>)

  /** Lines 185-191 of main with get_input and change_username: the line
      starts as `username ++ "> "`, is edited by the keys, and the command
      it holds decides what is sent. */
  function Compose(st: Sender, keys: seq<byte>): (r: Outgoing)
    requires SenderInv(st)
    ensures r.Line? ==> SenderInv(r.next) && NoNul(r.payload) && |r.payload| <= MsgBuffSize
    ensures r.Line? ==> r.payload == [] || (r.next == st && UnameLen(st) <= |r.payload| && r.payload[..UnameLen(st)] == st.username + Prompt)
    ensures r.Line? || r.Goodbye? ==> 1 <= r.consumed <= |keys| && forall j :: 0 <= j < r.consumed - 1 ==> keys[j] != Eol
    ensures r.Goodbye? ==> |st.username| + 18 <= MsgBuffSize
    ensures r.AwaitingKeys? ==> forall j :: 0 <= j < |keys| ==> keys[j] != Eol
    ensures ByeBye !in st.username && r.Line? ==> ByeBye !in r.next.username && Plain(r.payload)
    ensures ByeBye !in st.username && r.Line? ==> ByeBye !in r.payload
    ensures NoLeadingGoodbye(st.username) && r.Line? ==> Plain(r.payload)
    ensures SafeName(st.username) && r.Line? ==> SafeName(r.next.username)
  {
    var start := st.username + Prompt;
    assert start[..UnameLen(st)] == start;
    assert ValidLine(start, UnameLen(st));
    match Edit(start, UnameLen(st), keys)
    case Pending(l) => AwaitingKeys(l)
    case Finished(l, n, _) =>
      LineBytes(st, l);
      match Classify(l)
      case Unscanned => LibraryDependent(l)
      case Chat => Line(st, l, n)
      case Rename =>
        RenamedNameSafe(st, l);
        Line(ChangeUsername(st, l), [], n)
      case Quit => if |st.username| + 18 <= MsgBuffSize then Goodbye(n) else Overrun(l)
  }

  /** An edited line holds no goodbye byte unless the username does: the
      prompt is not one and typed bytes are printable. */
  lemma LineBytes(st: Sender, l: seq<byte>)
    requires ValidLine(l, UnameLen(st)) && l[..UnameLen(st)] == st.username + Prompt
    ensures ByeBye !in st.username ==> ByeBye !in l && (|l| == 0 || l[0] != ByeBye)
    ensures NoLeadingGoodbye(st.username) ==> |l| == 0 || l[0] != ByeBye
  {
    if |st.username| > 0 {
      assert l[0] == (st.username + Prompt)[0] == st.username[0];
    } else {
      assert l[0] == Prompt[0];
    }
    if ByeBye !in st.username {
      forall i | 0 <= i < |l|
        ensures l[i] != ByeBye
      {
        if i < UnameLen(st) {
          assert l[i] == (st.username + Prompt)[i];
        }
      }
    }
  }

  /** A rename keeps the username safe: a name free of 0xBB takes a word
      of a line free of 0xBB, and a one-word name takes a word of the
      typed text, whose bytes are printable. */
  lemma RenamedNameSafe(st: Sender, l: seq<byte>)
    requires SenderInv(st) && ValidLine(l, UnameLen(st)) && l[..UnameLen(st)] == st.username + Prompt
    ensures SafeName(st.username) ==> SafeName(ChangeUsername(st, l).username)
  {
    var r := ChangeUsername(st, l);
    if ByeBye !in st.username {
      LineBytes(st, l);
      assert ByeBye !in r.username;
    } else if SafeName(st.username) {
      RenamedOneWord(st, l);
    }
  }

  /** A line edited from the prompt is the username, the prompt and
      printable typed bytes. */
  lemma PromptLineSplit(st: Sender, l: seq<byte>) returns (typed: seq<byte>)
    requires ValidLine(l, UnameLen(st)) && l[..UnameLen(st)] == st.username + Prompt
    ensures l == st.username + [0x3E, 0x20] + typed
    ensures forall j :: 0 <= j < |typed| ==> IsPrint(typed[j])
  {
    typed := l[UnameLen(st)..];
    forall j | 0 <= j < |typed|
      ensures IsPrint(typed[j])
    {
      assert typed[j] == l[UnameLen(st) + j];
    }
    assert l == l[..UnameLen(st)] + typed;
  }

  /** A one-word username is renamed to a word of the typed text, whose
      bytes are printable and so never the goodbye byte. */
  lemma RenamedOneWord(st: Sender, l: seq<byte>)
    requires SenderInv(st) && ValidLine(l, UnameLen(st)) && l[..UnameLen(st)] == st.username + Prompt
    requires NoSpace(st.username)
    ensures ByeBye !in ChangeUsername(st, l).username || ChangeUsername(st, l) == st
  {
    var typed := PromptLineSplit(st, l);
    RenameArgumentPromptLine(st.username, typed);
    PrintableRenameArgument(typed);
    assert !IsPrint(ByeBye);
  }

  /** Why `SafeName` asks for one word: the username "a /u <0xBB>" holds
      its own rename command, so pressing end-of-line at the prompt renames
      it to a name led by 0xBB. */
  lemma SpacedNameRenamesToGoodbye(st: Sender, keys: seq<byte>)
    requires |st.username| == 6 && st.username[0] == 0x61 && st.username[1] == 0x20
    requires st.username[2] == Slash && st.username[3] == RenameKey
    requires st.username[4] == 0x20 && st.username[5] == ByeBye
    requires |keys| == 1 && keys[0] == Eol
    ensures SenderInv(st) && ByeBye in st.username
    ensures Compose(st, keys) == Line(Sender([ByeBye, 0x3E]), [], 1)
    ensures !NoLeadingGoodbye(Compose(st, keys).next.username)
  {
    assert st.username[5] in st.username;
    var line := SelfRenamingPromptLine(st);
    EditAtEol(line, UnameLen(st), keys);
    SelfRenamingLineRenames(line);
  }

  /** The prompt line of that username, as get_input starts it. */
  lemma SelfRenamingPromptLine(st: Sender) returns (line: seq<byte>)
    requires |st.username| == 6 && st.username[0] == 0x61 && st.username[1] == 0x20
    requires st.username[2] == Slash && st.username[3] == RenameKey
    requires st.username[4] == 0x20 && st.username[5] == ByeBye
    ensures SenderInv(st)
    ensures line == st.username + Prompt && UnameLen(st) == |line| == 8
    ensures ValidLine(line, UnameLen(st)) && SelfRenamingLine(line)
  {
    line := st.username + Prompt;
    assert forall i :: 0 <= i < |line| ==> line[i] != Nul;
  }

  /** How a finished line is dispatched, read off the text typed after
      the prompt (for a one-word username): "/q" says goodbye, "/u" renames
      to the word after it (or keeps the name) and sends the empty string,
      any other text goes out as chat, and a blank line is left to the C
      library. */
  lemma ComposeFinished(st: Sender, keys: seq<byte>, typed: seq<byte>, n: nat, how: EditEnd)
    requires SenderInv(st) && NoSpace(st.username)
    requires Edit(st.username + Prompt, UnameLen(st), keys) == Finished(st.username + Prompt + typed, n, how)
    ensures var line := st.username + Prompt + typed;
      Compose(st, keys) ==
        match TypedCommand(typed)
        case Chat => Line(st, line, n)
        case Rename => Line(Sender(TypedRenameArgument(typed).GetOr(st.username)), [], n)
        case Quit => if |st.username| + 18 <= MsgBuffSize then Goodbye(n) else Overrun(line)
        case Unscanned => LibraryDependent(line)
  {
    var line := st.username + Prompt + typed;
    assert line == st.username + [0x3E, 0x20] + typed;
    ClassifyPromptLine(st.username, typed);
    RenameArgumentPromptLine(st.username, typed);
    assert Classify(line) == TypedCommand(typed) && RenameArgument(line) == TypedRenameArgument(typed);
  }

  /** A line typed with printable keys and end-of-line, fitting the buffer,
      is dispatched by its typed text; the keys after end-of-line are left
      for the next turn. */
  lemma ComposeTypedLine(st: Sender, typed: seq<byte>, more: seq<byte>)
    requires SenderInv(st) && NoSpace(st.username)
    requires UnameLen(st) + |typed| < MsgBuffSize
    requires forall j :: 0 <= j < |typed| ==> IsPrint(typed[j])
    ensures var line := st.username + Prompt + typed;
      var n := |typed| + 1;
      Compose(st, typed + [Eol] + more) ==
        match TypedCommand(typed)
        case Chat => Line(st, line, n)
        case Rename => Line(Sender(TypedRenameArgument(typed).GetOr(st.username)), [], n)
        case Quit => if |st.username| + 18 <= MsgBuffSize then Goodbye(n) else Overrun(line)
        case Unscanned => LibraryDependent(line)
  {
    var start := st.username + Prompt;
    assert ValidLine(start, UnameLen(st));
    TypingAppends(start, UnameLen(st), typed, more);
    ComposeFinished(st, typed + [Eol] + more, typed, |typed| + 1, EndOfLine);
  }

  /** Blanks and printable bytes typed in turn make a printable text. */
  lemma PrintableJoin(a: seq<byte>, b: seq<byte>)
    requires forall j :: 0 <= j < |a| ==> IsPrint(a[j])
    requires forall j :: 0 <= j < |b| ==> IsPrint(b[j])
    ensures forall j :: 0 <= j < |a + b| ==> IsPrint((a + b)[j])
  {
    assert forall j :: |a| <= j < |a + b| ==> (a + b)[j] == b[j - |a|];
  }

  /** Typed spaces: printable and blank. */
  predicate Spaces(s: seq<byte>) {
    forall j :: 0 <= j < |s| ==> s[j] == 0x20
  }

  /** Spaces, '/', a printable byte and printable text make a printable
      text whose first non-blank byte is the '/'. */
  lemma CommandTyped(pre: seq<byte>, c: byte, more: seq<byte>)
    requires Spaces(pre) && IsPrint(c)
    requires forall j :: 0 <= j < |more| ==> IsPrint(more[j])
    ensures Blank(pre)
    ensures var typed := pre + ([Slash, c] + more);
      forall j :: 0 <= j < |typed| ==> IsPrint(typed[j])
  {
    PrintableJoin([Slash, c], more);
    PrintableJoin(pre, [Slash, c] + more);
  }

  /** "/q" after any spaces (and whatever follows on the line) says
      goodbye, unless the goodbye would not fit the line buffer. */
  lemma QuitSaysGoodbye(st: Sender, pre: seq<byte>, more: seq<byte>, typed: seq<byte>, rest: seq<byte>)
    requires SenderInv(st) && NoSpace(st.username) && Spaces(pre)
    requires typed == pre + ([Slash, QuitKey] + more)
    requires UnameLen(st) + |typed| < MsgBuffSize
    requires forall j :: 0 <= j < |more| ==> IsPrint(more[j])
    ensures Compose(st, typed + [Eol] + rest) ==
      if |st.username| + 18 <= MsgBuffSize then Goodbye(|typed| + 1)
      else Overrun(st.username + Prompt + typed)
  {
    assert (forall j :: 0 <= j < |typed| ==> IsPrint(typed[j])) && TypedCommand(typed) == Quit by {
      CommandTyped(pre, QuitKey, more);
      TypedCommandLetter(pre, QuitKey, more);
    }
    ComposeTypedLine(st, typed, rest);
  }

  /** Printable typed text that renames to `name`. */
  predicate RenamesTo(typed: seq<byte>, name: seq<byte>) {
    && (forall j :: 0 <= j < |typed| ==> IsPrint(typed[j]))
    && TypedCommand(typed) == Rename
    && TypedRenameArgument(typed) == Some(name)
  }

  /** A typed line that renames: the new name becomes the username and
      only the empty string is sent. */
  lemma ComposeRename(st: Sender, typed: seq<byte>, name: seq<byte>, rest: seq<byte>)
    requires SenderInv(st) && NoSpace(st.username)
    requires UnameLen(st) + |typed| < MsgBuffSize
    requires RenamesTo(typed, name)
    ensures Compose(st, typed + [Eol] + rest) == Line(Sender(name), [], |typed| + 1)
  {
    ComposeTypedLine(st, typed, rest);
  }

  /** "/u" typed between spaces and a word: printable text that renames
      to that word. */
  lemma RenameTyped(pre: seq<byte>, mid: seq<byte>, name: seq<byte>)
    requires Spaces(pre) && Spaces(mid) && 0 < |name| && NoSpace(name)
    requires forall j :: 0 <= j < |name| ==> IsPrint(name[j])
    ensures RenamesTo(pre + ([Slash, RenameKey] + (mid + name)), name)
  {
    PrintableJoin(mid, name);
    CommandTyped(pre, RenameKey, mid + name);
    TypedCommandLetter(pre, RenameKey, mid + name);
    assert name + [] == name;
    TypedRenameWord(pre, mid, name, []);
  }

  /** "/u", any spaces and a word, after any spaces: the word becomes the
      username and only the empty string is sent. */
  lemma RenameSendsEmptyLine(st: Sender, pre: seq<byte>, mid: seq<byte>, name: seq<byte>, typed: seq<byte>, rest: seq<byte>)
    requires SenderInv(st) && NoSpace(st.username) && Spaces(pre) && Spaces(mid)
    requires typed == pre + ([Slash, RenameKey] + (mid + name))
    requires UnameLen(st) + |typed| < MsgBuffSize
    requires 0 < |name| && NoSpace(name)
    requires forall j :: 0 <= j < |name| ==> IsPrint(name[j])
    ensures Compose(st, typed + [Eol] + rest) == Line(Sender(name), [], |typed| + 1)
  {
    assert RenamesTo(typed, name) by {
      RenameTyped(pre, mid, name);
    }
    ComposeRename(st, typed, name, rest);
  }

  /** '/' followed by any other byte, after any spaces, is not a command:
      the whole line goes out as chat. */
  lemma UnknownCommandSentAsChat(st: Sender, pre: seq<byte>, c: byte, more: seq<byte>, typed: seq<byte>, rest: seq<byte>)
    requires SenderInv(st) && NoSpace(st.username) && Spaces(pre)
    requires typed == pre + ([Slash, c] + more)
    requires UnameLen(st) + |typed| < MsgBuffSize
    requires IsPrint(c) && c != QuitKey && c != RenameKey
    requires forall j :: 0 <= j < |more| ==> IsPrint(more[j])
    ensures Compose(st, typed + [Eol] + rest) == Line(st, st.username + Prompt + typed, |typed| + 1)
  {
    assert (forall j :: 0 <= j < |typed| ==> IsPrint(typed[j])) && TypedCommand(typed) == Chat by {
      CommandTyped(pre, c, more);
      TypedCommandLetter(pre, c, more);
    }
    ComposeTypedLine(st, typed, rest);
  }

  datatype Step =
    | Sent(next: Sender, wire: seq<byte>, consumed: nat)
    | Quitting(wire: seq<byte>, consumed: nat)
    | SendFailed
    | NothingSent(why: Outgoing)

  /** Lines 192-193 of main: the line buffer holding `payload` is
      encrypted and sent with its terminator. */
  function SendLine(key: byte, next: Sender, payload: seq<byte>, consumed: nat, reported: int): (r: Step)
    requires key != 0 && NoNul(payload)
    ensures r.Sent? || r.SendFailed?
    ensures r.Sent? <==> reported == |payload| + 1
    ensures r.Sent? ==> r.next == next && r.consumed == consumed && r.wire == Frame(key, payload)
    ensures r.Sent? ==> OneFrame(r.wire) && |r.wire| == |payload| + 1
    ensures r.Sent? ==> CString(XorCrypt(key, r.wire)) == payload
  {
    XorCryptNulFree(key, payload);
    FrameDecrypts(key, payload);
    FrameIsOneFrame(key, payload);
    match SendString(XorCrypt(key, payload), reported)
    case SendDied => SendFailed
    case Transmitted(w) => Sent(next, w, consumed)
  }

  /** The "/q" branch of get_input: say_goodbye sends the goodbye, then
      the process exits. */
  function SendGoodbye(key: byte, username: seq<byte>, consumed: nat, reported: int): (r: Step)
    requires key != 0 && NoNul(username) && |username| + 18 <= MsgBuffSize
    ensures r.Quitting? || r.SendFailed?
    ensures r.Quitting? <==> reported == |username| + 19
    ensures r.Quitting? ==> r.consumed == consumed && r.wire == Frame(key, GoodbyePayload(username))
    ensures r.Quitting? ==> OneFrame(r.wire) && |r.wire| == |username| + 19
    ensures r.Quitting? ==> CString(XorCrypt(key, r.wire)) == [ByeBye] + username + HasDisconnected
  {
    FrameIsOneFrame(key, GoodbyePayload(username));
    match SayGoodbye(key, username, reported)
    case SendDied => SendFailed
    case Transmitted(w) => Quitting(w, consumed)
  }

  /** One turn of the main loop (lines 185-193), including a "/q" that
      says goodbye and exits: the line is encrypted and sent as one frame;
      `reported` is what `send` returns, and any other count than the
      frame's length is fatal. */
  function SendStep(key: byte, st: Sender, keys: seq<byte>, reported: int): (r: Step)
    requires key != 0 && SenderInv(st)
    ensures r.Sent? || r.Quitting? ==> OneFrame(r.wire) && |r.wire| <= MsgBuffSize + 1 && reported == |r.wire|
    ensures r.Sent? ==> SenderInv(r.next)
    ensures r.Sent? ==> var text := CString(XorCrypt(key, r.wire));
              text == [] || (r.next == st && UnameLen(st) <= |text| && text[..UnameLen(st)] == st.username + Prompt)
    ensures r.Quitting? ==> CString(XorCrypt(key, r.wire)) == [ByeBye] + st.username + HasDisconnected
    ensures r.NothingSent? ==> !r.why.Line? && !r.why.Goodbye?
  {
    match Compose(st, keys)
    case Line(next, payload, n) => SendLine(key, next, payload, n, reported)
    case Goodbye(n) => SendGoodbye(key, st.username, n, reported)
    case other => NothingSent(other)
  }

  /** A main-loop turn and the peer's handler agree: when a line is sent,
      the peer prints exactly the composed line, or ignores the empty
      frame a rename sends. */
  lemma StepDelivered(key: byte, st: Sender, keys: seq<byte>, reported: int)
    requires key != 0 && SenderInv(st) && NoLeadingGoodbye(st.username)
    requires SendStep(key, st, keys, reported).Sent?
    ensures var p := Compose(st, keys).payload;
      var w := SendStep(key, st, keys, reported).wire;
      HandleIncoming(key, true, w) == (if p == [] then Incoming(None, true, false) else Incoming(Some(p), true, false))
  {
    var c := Compose(st, keys);
    assert c.Line?;
    var p := c.payload;
    assert SendStep(key, st, keys, reported) == SendLine(key, c.next, p, c.consumed, reported);
    if p == [] {
      EmptyFrameIgnored(key, true);
    } else {
      ChatLineShown(key, true, p);
    }
  }

  /** How a conversation typed on one side ends. */
  datatype SessionEnd = SaidGoodbye(name: seq<byte>) | Stopped(why: Outgoing)

  /** The strings the main loop sends, one per turn, until it says goodbye
      or stops; every send succeeds. */
  datatype Conversation = Conversation(lines: seq<seq<byte>>, end: SessionEnd)

  /** One more line in front of a list of lines that all fit the line
      buffer (and are plain, when `plain`). */
  lemma LinesCons(p: seq<byte>, lines: seq<seq<byte>>, plain: bool)
    requires NoNul(p) && |p| <= MsgBuffSize
    requires forall i :: 0 <= i < |lines| ==> NoNul(lines[i]) && |lines[i]| <= MsgBuffSize
    requires plain ==> Plain(p) && forall i :: 0 <= i < |lines| ==> Plain(lines[i])
    ensures forall i :: 0 <= i < |[p] + lines| ==> NoNul(([p] + lines)[i]) && |([p] + lines)[i]| <= MsgBuffSize
    ensures plain ==> forall i :: 0 <= i < |[p] + lines| ==> Plain(([p] + lines)[i])
  {
    assert forall i :: 0 < i < |[p] + lines| ==> ([p] + lines)[i] == lines[i - 1];
  }

  /** The main loop over a sequence of keys, every send succeeding. */
  function Converse(st: Sender, keys: seq<byte>): (r: Conversation)
    requires SenderInv(st)
    decreases |keys|
    ensures forall i :: 0 <= i < |r.lines| ==> NoNul(r.lines[i]) && |r.lines[i]| <= MsgBuffSize
    ensures r.end.SaidGoodbye? ==> NoNul(r.end.name) && |r.end.name| + 18 <= MsgBuffSize
    ensures SafeName(st.username) ==> forall i :: 0 <= i < |r.lines| ==> Plain(r.lines[i])
  {
    var c := Compose(st, keys);
    if c.Line? then
      assert SenderInv(c.next) && 1 <= c.consumed <= |keys|;
      var later := Converse(c.next, keys[c.consumed..]);
      LinesCons(c.payload, later.lines, SafeName(st.username));
      Conversation([c.payload] + later.lines, later.end)
    else if c.Goodbye? then Conversation([], SaidGoodbye(st.username))
    else Conversation([], Stopped(c))
  }

  /** Everything a conversation puts on the wire. */
  function SenderWire(key: byte, c: Conversation): seq<byte>
    requires key != 0
    requires forall i :: 0 <= i < |c.lines| ==> NoNul(c.lines[i])
    requires c.end.SaidGoodbye? ==> NoNul(c.end.name)
  {
    if c.end.SaidGoodbye? then Wire(key, c.lines) + Frame(key, GoodbyePayload(c.end.name))
    else Wire(key, c.lines)
  }

  /** A goodbye frame ends the receive loop, whatever follows it: the
      loop prints "<name> has disconnected" and nothing after it. */
  lemma GoodbyeEndsThread(key: byte, name: seq<byte>, rest: seq<byte>, end: StreamEnd)
    requires key != 0 && NoNul(name) && |name| + 18 <= MsgBuffSize
    ensures ReceiveThread(key, Stream(Frame(key, GoodbyePayload(name)) + rest, end))
      == Received([name + HasDisconnected], PartnerQuit)
  {
    GoodbyeRoundTrip(key, name, rest, end);
  }

  /** Plain frames, then a goodbye: every non-empty string is printed,
      then the goodbye text, and the loop ends there. */
  lemma GoodbyeAfterLines(key: byte, lines: seq<seq<byte>>, name: seq<byte>, rest: seq<byte>, end: StreamEnd)
    requires key != 0 && forall i :: 0 <= i < |lines| ==> NoNul(lines[i]) && Plain(lines[i])
    requires NoNul(name) && |name| + 18 <= MsgBuffSize
    ensures ReceiveThread(key, Stream(Wire(key, lines) + (Frame(key, GoodbyePayload(name)) + rest), end))
      == Received(Visible(lines) + [name + HasDisconnected], PartnerQuit)
  {
    ReceiveWire(key, lines, Frame(key, GoodbyePayload(name)) + rest, end);
    GoodbyeEndsThread(key, name, rest, end);
  }

  /** Plain frames, then the peer closes: every non-empty string is
      printed and the loop ends on the close. */
  lemma LinesThenClose(key: byte, lines: seq<seq<byte>>)
    requires key != 0 && forall i :: 0 <= i < |lines| ==> NoNul(lines[i]) && Plain(lines[i])
    ensures ReceiveThread(key, Stream(Wire(key, lines), Closed)) == Received(Visible(lines), ConnectionClosed)
  {
    ReceiveWire(key, lines, [], Closed);
    assert Wire(key, lines) + [] == Wire(key, lines);
    assert ReceiveThread(key, Stream([], Closed)) == Received([], ConnectionClosed);
    assert Visible(lines) + [] == Visible(lines);
  }

  /** End to end: what the peer's receive loop prints is exactly the
      non-empty lines this side's main loop sent, in order; a goodbye adds
      "<name> has disconnected" and ends the session, and a connection
      closed after the last line ends the loop without it. Holds for every
      username that is safe from being taken for a goodbye. */
  lemma ConversationReceived(key: byte, st: Sender, keys: seq<byte>, rest: seq<byte>, end: StreamEnd)
    requires key != 0 && SenderInv(st) && SafeName(st.username)
    ensures var c := Converse(st, keys);
      c.end.SaidGoodbye? ==>
        ReceiveThread(key, Stream(SenderWire(key, c) + rest, end))
          == Received(Visible(c.lines) + [c.end.name + HasDisconnected], PartnerQuit)
    ensures var c := Converse(st, keys);
      c.end.Stopped? ==>
        ReceiveThread(key, Stream(SenderWire(key, c), Closed)) == Received(Visible(c.lines), ConnectionClosed)
  {
    var c := Converse(st, keys);
    if c.end.SaidGoodbye? {
      var g := Frame(key, GoodbyePayload(c.end.name));
      ConcatAssoc(Wire(key, c.lines), g, rest);
      GoodbyeAfterLines(key, c.lines, c.end.name, rest, end);
    } else {
      LinesThenClose(key, c.lines);
    }
  }
}
